=== FILE: README.md ===
# CPU/GPU thermal monitor: a Dafny model of its decision logic

The app samples CPU and GPU temperature, battery temperature, CPU usage,
thermal status and thermal headroom. It shows these readings in an in-app
screen and in a floating overlay that can be dragged around. This project
models the parts of the app that make decisions. The operating-system calls
become inputs, and the handlers become pure transitions on small records.

- `ThermalProbes` (`thermal_probes.dfy`): the temperature probes. For CPU and
  GPU, three thermal zones are tried in order and the first plausible reading
  is kept. The battery probe reads a single source and has no plausibility
  bound.
- `CpuUsage` (`cpu_usage.dfy`): the scan of `top` output. It finds the first
  line that mentions "CPU:" or "cpu". In that line, the first token that ends
  in '%' and parses gives the value.
- `ThermalStatus` (`thermal_status.dfy`): status codes, their labels and
  colours, the headroom forecast, and its conversion to a load percentage.
- `ThermalListeners` (`thermal_listeners.dfy`): the thermal-status
  subscription, as a registry of listeners plus the monitor's listener and
  callback fields.
- `Looper` (`looper.dfy`): one `Handler`'s pending posts, as a multiset of
  runnables.
- `OverlayService` (`overlay_service.dfy`): the drag handler, with Kotlin
  `Int` truncation and wrap-around written out. Also the initial position,
  the update loop that always reschedules, and the teardown.
- `MainActivity` (`main_activity.dfy`): several pieces of the in-app screen:
  - reconciling the stored "overlay active" flag with the running service;
  - the toggle paths, each of which writes through to the store;
  - the monitoring loop, which reschedules only while a flag is set;
  - the lifecycle callbacks.
- `ColourBands` (`colour_bands.dfy`): the temperature, CPU-usage and
  frame-rate colour thresholds.
- `Options` (`options.dfy`): the optional-value type, and a "first element
  that yields a value" search. The probe cascade and the `top` scan both use
  this search.

Reading a file or running a process (`cat`, `top`) is an input here. A
sysfs line is `Option<string>`, and the `top` output is a sequence of lines.
`String.toFloat` is an abstract `string -> Option<real>`, which gives `None`
where the real call throws. Floats are modelled as reals, and NaN as `None`.

Behaviour worth noting, as the code has it:

- CPU usage is read from the output of a single `top -n 1` run. It defaults
  to 0 and is not clamped to 100.
- `startMonitoring` in the activity has no guard. Every call adds another
  chain of update ticks (see Findings).
- The drag handler has no idle or dragging state. Pointer-up and every
  action other than down and move are simply not consumed.
- Each thermal listener calls the monitor's callback field at the moment it
  runs. A listener leaked by a second `startMonitoring` therefore also
  reaches the current callback.
- Pausing the activity stops its thermal monitor. Resuming does not
  subscribe again.

## Model

| member | source | states |
|---|---|---|
| `ThermalProbes.ZoneCelsius` | app/src/main/java/com/monitor/cpugpu/ThermalMonitor.kt:74-79 | A zone's candidate is accepted exactly when the line is present and non-empty, parses, and the raw milli-degree value lies strictly between 0 and 150000. The accepted value is the raw value divided by 1000. |
| `ThermalProbes.ProbeZones` | app/src/main/java/com/monitor/cpugpu/ThermalMonitor.kt:67-84 | The cascade returns the value of the first accepted zone, with every earlier zone rejected. It returns absent exactly when every zone is rejected. Any returned value lies inside (0, 150). |
| `ThermalProbes.ReadFirstPlausible` | app/src/main/java/com/monitor/cpugpu/ThermalMonitor.kt:67-84 | The zone loop of `getCPUTemperature` and `getGPUTemperature`, which returns early and skips every failure, computes the same result as the cascade. |
| `ThermalProbes.CpuTemperature` | app/src/main/java/com/monitor/cpugpu/ThermalMonitor.kt:59-88 | The CPU probe tries zones 0, 1 and 2 in that order and keeps the first plausible reading. Its result is always inside (0, 150). |
| `ThermalProbes.GpuTemperature` | app/src/main/java/com/monitor/cpugpu/ThermalMonitor.kt:90-119 | The GPU probe uses the same cascade and bound over zones 3, 4 and 5. |
| `ThermalProbes.BatteryTemperature` | app/src/main/java/com/monitor/cpugpu/ThermalMonitor.kt:121-136 | The battery probe returns a value exactly when its single line is present, non-empty and parses. The value is the raw reading divided by 10. |
| `ThermalProbes.CpuProbeReadsOnlyCpuZones` | app/src/main/java/com/monitor/cpugpu/ThermalMonitor.kt:61-65 | The CPU result depends only on zones 0 to 2, and these zones are disjoint from the GPU zones. |
| `ThermalProbes.GpuProbeReadsOnlyGpuZones` | app/src/main/java/com/monitor/cpugpu/ThermalMonitor.kt:92-96 | The GPU result depends only on zones 3 to 5. |
| `ThermalProbes.CpuProbeExample` | app/src/main/java/com/monitor/cpugpu/ThermalMonitor.kt:67-79 | Given zone readings [unreadable, 45200, 200000], the probe gives 45.2. |
| `ThermalProbes.AllZonesFailing` | app/src/main/java/com/monitor/cpugpu/ThermalMonitor.kt:80-87 | If every zone is unreadable, empty, unparsable or out of bounds, the result is absent. It is never 0. |
| `ThermalProbes.BatteryHasNoPlausibilityBound` | app/src/main/java/com/monitor/cpugpu/ThermalMonitor.kt:128-129 | A battery reading is returned as-is even when it is negative or at least 150 degrees, although a thermal zone would reject the same reading. |
| `ThermalStatus.ThermalStatusString` | app/src/main/java/com/monitor/cpugpu/ThermalMonitor.kt:46-57 | The label is "Unknown" exactly for codes outside 0 to 6. Reading a label back gives the status of its code. |
| `ThermalStatus.CodeOf` | app/src/main/java/com/monitor/cpugpu/ThermalMonitor.kt:47-55 | Each of the seven known statuses has a platform code that maps back to that status. The catch-all status has no code. |
| `ThermalStatus.LabelsAreDistinct` | app/src/main/java/com/monitor/cpugpu/ThermalMonitor.kt:48-54 | The codes 0 to 6 have seven pairwise distinct labels. |
| `ThermalStatus.StatusColour` | app/src/main/java/com/monitor/cpugpu/MainActivity.kt:261-270 | The status text is grey exactly for unrecognised codes. Code k in 0 to 6 gets the colour of warmth k, from green for none to dark red for shutdown. |
| `ThermalStatus.StatusColourWarmsWithSeverity` | app/src/main/java/com/monitor/cpugpu/MainActivity.kt:262-268 | A more severe status always shows a strictly warmer colour. |
| `ThermalStatus.ColourFollowsLabel` | app/src/main/java/com/monitor/cpugpu/MainActivity.kt:255-271 | Two status codes share a colour exactly when they share a label. |
| `ThermalStatus.ThermalHeadroom` | app/src/main/java/com/monitor/cpugpu/ThermalMonitor.kt:38-44 | A headroom value is available exactly from SDK 30 on, and only when the platform gives one. It is then the platform's forecast. |
| `ThermalStatus.HeadroomDisplay` | app/src/main/java/com/monitor/cpugpu/MainActivity.kt:239-249 | Below SDK 30 the screen shows "requires Android 11". A NaN headroom shows N/A. Otherwise the screen shows a load from which the headroom is recovered as 1 − load/100. |
| `ThermalStatus.HeadroomLoadExample` | app/src/main/java/com/monitor/cpugpu/MainActivity.kt:241-243 | A headroom of 0.3 shows as a 70% load. More headroom never shows as more load. |
| `CpuUsage.ContainsAt` | app/src/main/java/com/monitor/cpugpu/ThermalMonitor.kt:146 | The line filter finds a pattern wherever it occurs in the line. |
| `CpuUsage.ContainsOnlyWhereFound` | app/src/main/java/com/monitor/cpugpu/ThermalMonitor.kt:146 | The line filter finds a pattern only where it occurs, so together with `ContainsAt` it is exactly substring containment. |
| `CpuUsage.Tokens` | app/src/main/java/com/monitor/cpugpu/ThermalMonitor.kt:147 | The pieces of a line split on whitespace are non-empty and contain no whitespace. Together they hold every non-whitespace character of the line, in order. |
| `CpuUsage.TokensOfJoin` | app/src/main/java/com/monitor/cpugpu/ThermalMonitor.kt:147 | Splitting undoes joining: splitting space-joined tokens gives back exactly those tokens. |
| `CpuUsage.TokensOfLayout` | app/src/main/java/com/monitor/cpugpu/ThermalMonitor.kt:147 | The pieces are the maximal whitespace-free runs. Words separated by runs of whitespace of any length, with or without whitespace at either end, split back into exactly those words. |
| `CpuUsage.StripPercent` | app/src/main/java/com/monitor/cpugpu/ThermalMonitor.kt:151 | Removing '%' leaves no '%' and never lengthens the token. It changes nothing in a token that has no '%'. With `StripPercentAppend` and `StripTrailingPercent` this fixes the result for every token. |
| `CpuUsage.StripPercentAppend` | app/src/main/java/com/monitor/cpugpu/ThermalMonitor.kt:151 | Removal works piece by piece, so the remaining characters keep their order. |
| `CpuUsage.StripTrailingPercent` | app/src/main/java/com/monitor/cpugpu/ThermalMonitor.kt:151 | A token with a single trailing '%' becomes the token without it, so "45%" becomes "45". |
| `CpuUsage.PercentValue` | app/src/main/java/com/monitor/cpugpu/ThermalMonitor.kt:149-151 | A token contributes nothing unless it ends in '%'. A number followed by one '%' contributes the parse of the number. |
| `CpuUsage.LabelledPercentLine` | app/src/main/java/com/monitor/cpugpu/ThermalMonitor.kt:147-152 | A line "name number%" yields exactly the parse of the number, absent when it does not parse. |
| `CpuUsage.FirstPercentTokenWins` | app/src/main/java/com/monitor/cpugpu/ThermalMonitor.kt:148-153 | A '%' token that parses, with no earlier one that does, gives the line's value. |
| `CpuUsage.LineUsage` | app/src/main/java/com/monitor/cpugpu/ThermalMonitor.kt:147-157 | A usage line yields the value of its first token that ends in '%' and parses. Unparsable '%' tokens are skipped. The line yields nothing exactly when it has no such token. |
| `CpuUsage.FirstUsageLine` | app/src/main/java/com/monitor/cpugpu/ThermalMonitor.kt:145-146 | This is the position of the first line that contains "CPU:" or "cpu". It is absent only when no line does. |
| `CpuUsage.CpuUsage` | app/src/main/java/com/monitor/cpugpu/ThermalMonitor.kt:138-166 | The usage comes from the first usage line only. It is 0 when there is no usage line, or when that line yields nothing. |
| `CpuUsage.ScanTopOutput` | app/src/main/java/com/monitor/cpugpu/ThermalMonitor.kt:138-166 | The nested loops of `getCPUUsage`, with their two `break`s, compute the same value as the reference definition. |
| `CpuUsage.OnlyFirstUsageLineCounts` | app/src/main/java/com/monitor/cpugpu/ThermalMonitor.kt:145-159 | Lines after the first usage line, and non-usage lines before it, never affect the result. |
| `CpuUsage.GluedPercentagesYieldZero` | app/src/main/java/com/monitor/cpugpu/ThermalMonitor.kt:146-157 | A line that mentions "cpu" but whose percentages are glued to words ("12%user") yields 0. |
| `CpuUsage.UsageIsNotClamped` | app/src/main/java/com/monitor/cpugpu/ThermalMonitor.kt:151-152 | A token "250%" on a usage line is reported as 250. The value is not clamped to 100. |
| `ThermalListeners.Start` | app/src/main/java/com/monitor/cpugpu/ThermalMonitor.kt:20-26 | Starting registers a fresh listener and sets both fields. Any previous listener stays registered. Validity of the registry is kept. |
| `ThermalListeners.Stop` | app/src/main/java/com/monitor/cpugpu/ThermalMonitor.kt:28-32 | Stopping clears both fields and unregisters exactly the remembered listener. Validity of the registry is kept. |
| `ThermalListeners.StopIsIdempotent` | app/src/main/java/com/monitor/cpugpu/ThermalMonitor.kt:28-32 | Stopping twice has the same effect as stopping once. |
| `ThermalListeners.Deliver` | app/src/main/java/com/monitor/cpugpu/ThermalMonitor.kt:22-24 | On a status event, every registered listener invokes the current callback with the unchanged status. With no callback set, nothing is delivered. |
| `ThermalListeners.DeliverAll` | app/src/main/java/com/monitor/cpugpu/ThermalMonitor.kt:22-24 | Each event of a stream produces its own deliveries. No event is dropped. |
| `ThermalListeners.StartedOnceForwardsEveryEvent` | app/src/main/java/com/monitor/cpugpu/ThermalMonitor.kt:20-24 | After one start, every event reaches the callback exactly once and in order, repeated identical statuses included. |
| `ThermalListeners.SecondStartDuplicatesDeliveries` | app/src/main/java/com/monitor/cpugpu/ThermalMonitor.kt:20-26 | A second start without a stop leaves two listeners registered. Each event then reaches the new callback twice. |
| `ThermalListeners.StopSilences` | app/src/main/java/com/monitor/cpugpu/ThermalMonitor.kt:28-32 | After a stop no callback is invoked, even if a leaked listener is still registered. |
| `Looper.Post` | app/src/main/java/com/monitor/cpugpu/MainActivity.kt:199 | `post` and `postDelayed` add exactly one pending run of the runnable and leave every other runnable's count alone. |
| `Looper.Dispatch` | app/src/main/java/com/monitor/cpugpu/MainActivity.kt:44-49 | Running a posted runnable takes exactly one of its pending posts off the queue and leaves the others alone. |
| `Looper.RemoveCallbacks` | app/src/main/java/com/monitor/cpugpu/OverlayService.kt:200 | `removeCallbacks(r)` drops every pending post of `r` and leaves all other posts alone. |
| `OverlayService.Trunc` | app/src/main/java/com/monitor/cpugpu/OverlayService.kt:131-132 | Truncation rounds toward zero: the result is within one of its argument, on the zero side. |
| `OverlayService.FloatToInt` | app/src/main/java/com/monitor/cpugpu/OverlayService.kt:131-132 | `toInt()` truncates and saturates at the 32-bit `Int` range. |
| `OverlayService.WrapInt` | app/src/main/java/com/monitor/cpugpu/OverlayService.kt:131-132 | `Int` addition gives a 32-bit value congruent to the exact sum. The sum itself is kept when it already fits. |
| `OverlayService.OnTouch` | app/src/main/java/com/monitor/cpugpu/OverlayService.kt:121-138 | Down and move are consumed and every other action is not. Down captures the window and pointer origins without moving the window. Move keeps the captured origins. An unconsumed event changes nothing. |
| `OverlayService.DragMovesByPointerDelta` | app/src/main/java/com/monitor/cpugpu/OverlayService.kt:130-135 | After a down at p, a move to q shifts the window by trunc(q − p), as long as the values stay within the `Int` range. |
| `OverlayService.DragExample` | app/src/main/java/com/monitor/cpugpu/OverlayService.kt:123-136 | With the window at (100,100), a down at (50,50) and a move to (80,70) give (130,120). A pointer-up after that is not consumed and leaves the window where it is. |
| `OverlayService.MovesAreNotCumulative` | app/src/main/java/com/monitor/cpugpu/OverlayService.kt:131-132 | A move lands the window in the same place whatever moves came before it. |
| `OverlayService.ReturnToDownPointRestores` | app/src/main/java/com/monitor/cpugpu/OverlayService.kt:123-132 | Moving the pointer back to its down point puts the window back at its origin. |
| `OverlayService.DragIsNotClamped` | app/src/main/java/com/monitor/cpugpu/OverlayService.kt:105-107 | Starting from the initial (100,100), a drag can take the window to negative coordinates. |
| `OverlayService.OnCreate` | app/src/main/java/com/monitor/cpugpu/OverlayService.kt:47-58 | On creation, the view is attached at (100,100), a status listener is registered, and exactly one update is pending. |
| `OverlayService.RunUpdate` | app/src/main/java/com/monitor/cpugpu/OverlayService.kt:40-45 | An update tick always posts itself again, so the number of pending ticks does not change. It leaves the monitor, the view, the drag state and the sent broadcasts alone. |
| `OverlayService.RunUpdates` | app/src/main/java/com/monitor/cpugpu/OverlayService.kt:40-45 | The overlay loop never ends by itself: after any number of ticks, the same positive number of ticks is still pending. The monitor, the view, the drag state and the sent broadcasts are unchanged. |
| `OverlayService.Touched` | app/src/main/java/com/monitor/cpugpu/OverlayService.kt:121-138 | A touch sets the drag state as the touch listener computes it and changes no other part of the service. |
| `OverlayService.OnDestroy` | app/src/main/java/com/monitor/cpugpu/OverlayService.kt:198-205 | Destroying the service leaves no tick pending and stops the monitor, unregistering exactly its listener. It removes the view and sends the stop broadcast last. |
| `MainActivity.Saved` | app/src/main/java/com/monitor/cpugpu/MainActivity.kt:88 | Reading the flag gives the last value written. With no writes it gives the stored value, and false when the key was never stored. |
| `MainActivity.Write` | app/src/main/java/com/monitor/cpugpu/MainActivity.kt:116-119 | After a write, reading the flag gives the value written, and the write is logged. |
| `MainActivity.Reconcile` | app/src/main/java/com/monitor/cpugpu/MainActivity.kt:92-96 | The state is effective only if it is both saved and running. A correction is due only when the state is not effective. A saved state is either effective or corrected. |
| `MainActivity.RestoreOverlayState` | app/src/main/java/com/monitor/cpugpu/MainActivity.kt:86-103 | The effective flag is true exactly when the state is saved and running. False is written exactly when the state is saved but not running; otherwise nothing is written. Afterwards the store and the flag agree. The loop, the thermal monitor, the receiver and the effects are unchanged. |
| `MainActivity.ReconcileCases` | app/src/main/java/com/monitor/cpugpu/MainActivity.kt:92-96 | The four cases: (true,false) gives false plus a correction; (true,true) gives true; (false,·) gives false with no write. |
| `MainActivity.SaveOverlayState` | app/src/main/java/com/monitor/cpugpu/MainActivity.kt:116-119 | Saving appends the activity's flag as one write, so the store agrees with the flag. Nothing else changes. |
| `MainActivity.StartOverlayService` | app/src/main/java/com/monitor/cpugpu/MainActivity.kt:150-163 | Starting requests the service, sets the flag and stores true. The loop, the thermal monitor and the receiver are untouched. |
| `MainActivity.StopOverlayService` | app/src/main/java/com/monitor/cpugpu/MainActivity.kt:165-172 | Stopping requests the stop, clears the flag and stores false. The loop, the thermal monitor and the receiver are untouched. |
| `MainActivity.OnReceive` | app/src/main/java/com/monitor/cpugpu/MainActivity.kt:28-36 | The stopped broadcast clears the flag and stores false, and requests nothing. Any other or null action leaves the state unchanged. The loop, the thermal monitor and the receiver are never touched. |
| `MainActivity.OnClick` | app/src/main/java/com/monitor/cpugpu/MainActivity.kt:121-137 | When active, a click stops the overlay. When inactive with permission, it starts the overlay. When inactive without permission, only a permission request is made. The flag afterwards is true exactly when the overlay was inactive and permission was granted. |
| `MainActivity.OnActivityResult` | app/src/main/java/com/monitor/cpugpu/MainActivity.kt:174-185 | A granted result for request 1001 sets the flag, stores true with exactly one write appended to the log, and requests the overlay start. Anything else changes nothing. The loop, the thermal monitor and the receiver are never touched. |
| `MainActivity.TogglesKeepStoreInSync` | app/src/main/java/com/monitor/cpugpu/MainActivity.kt:116-172 | Once the store and the flag agree, no click, permission result or broadcast makes them disagree. A click that flips the flag appends exactly one write. |
| `MainActivity.StartMonitoring` | app/src/main/java/com/monitor/cpugpu/MainActivity.kt:197-200 | Starting sets the flag and adds one pending tick every time it is called. |
| `MainActivity.StopMonitoring` | app/src/main/java/com/monitor/cpugpu/MainActivity.kt:202-208 | Stopping clears the flag and leaves no tick pending. From SDK 29 on it also stops the thermal monitor. |
| `MainActivity.RunUpdate` | app/src/main/java/com/monitor/cpugpu/MainActivity.kt:44-51 | A tick posts itself again only while monitoring, otherwise one fewer tick is pending. The invariant "a tick is pending exactly while monitoring" is kept. The overlay flag, store, monitor, receiver and effects are unchanged. |
| `MainActivity.RunUpdates` | app/src/main/java/com/monitor/cpugpu/MainActivity.kt:44-51 | While monitoring, any number of ticks leaves the number of pending chains unchanged, and the overlay flag, store, monitor, receiver and effects as they were. |
| `MainActivity.OnCreate` | app/src/main/java/com/monitor/cpugpu/MainActivity.kt:53-69 | From SDK 29 on, creation subscribes a new thermal monitor to status, adds one tick chain, registers the receiver and reconciles the flag with the store. It requests nothing of the platform. Below SDK 29 it changes nothing. |
| `MainActivity.OnResume` | app/src/main/java/com/monitor/cpugpu/MainActivity.kt:310-315 | From SDK 29 on, resuming turns monitoring on and adds one pending tick, even when a chain is already running. The thermal monitor is left as it is, so a dropped subscription is not renewed. The overlay flag, the store and the receiver are unchanged. |
| `MainActivity.OnPause` | app/src/main/java/com/monitor/cpugpu/MainActivity.kt:305-308 | Pausing turns monitoring off and leaves no tick pending. From SDK 29 on it also stops the thermal monitor, leaving no listener. The overlay flag, the store and the receiver are unchanged. |
| `MainActivity.OnDestroy` | app/src/main/java/com/monitor/cpugpu/MainActivity.kt:296-303 | After destruction no tick is pending, the loop is off and the receiver is unregistered. From SDK 29 on the thermal monitor is stopped too. The overlay flag and the store are unchanged. |
| `MainActivity.DeliverBroadcast` | app/src/main/java/com/monitor/cpugpu/MainActivity.kt:71-84 | While the receiver is registered, the stopped broadcast clears the flag and stores false, keeping the two in sync. An unregistered receiver, or any other action, changes nothing. The loop, the thermal monitor, the receiver and the effects stay as they are. |
| `MainActivity.CreateThenResumeRunsTwoChains` | app/src/main/java/com/monitor/cpugpu/MainActivity.kt:310-315 | After creation followed by resume, two tick chains are pending, and ticking keeps both alive. |
| `MainActivity.PauseEndsTheLoop` | app/src/main/java/com/monitor/cpugpu/MainActivity.kt:202-208 | After a pause no tick is pending. A resume then restarts exactly one chain. |
| `MainActivity.ResumeDoesNotResubscribe` | app/src/main/java/com/monitor/cpugpu/MainActivity.kt:305-315 | After creation, a status push reaches the activity once. After a pause and a resume, no push reaches it. |
| `MainActivity.OverlayDestroyClearsFlag` | app/src/main/java/com/monitor/cpugpu/MainActivity.kt:28-36 | The overlay's teardown broadcast clears the activity's flag and stores false. |
| `MainActivity.StartMonitoringGuarded` | app/src/main/java/com/monitor/cpugpu/MainActivity.kt:197-200 | Corrected start: while already monitoring, starting is a no-op. Otherwise it adds one chain. |
| `MainActivity.GuardedLoopKeepsSingleChain` | app/src/main/java/com/monitor/cpugpu/MainActivity.kt:197-208 | With the guard, "one tick pending while monitoring, none otherwise" survives start, stop and tick, and start is idempotent. |
| `MainActivity.StartMonitoringTwiceAddsTwoChains` | app/src/main/java/com/monitor/cpugpu/MainActivity.kt:197-200 | As written, two starts add two chains, which breaks the single-chain invariant. |
| `MainActivity.GuardedCreateThenResumeRunsOneChain` | app/src/main/java/com/monitor/cpugpu/MainActivity.kt:310-315 | With the guard, creation followed by resume leaves one chain. |
| `ColourBands.TempBand` | app/src/main/java/com/monitor/cpugpu/OverlayService.kt:178-186 | Band k holds exactly the temperatures from threshold k−1 up to but excluding threshold k, with thresholds 50/60/70/80. `updateCPUTempColor` and `updateGPUTempColor` (MainActivity.kt:274-294) use the same chain. |
| `ColourBands.CpuUsageBand` | app/src/main/java/com/monitor/cpugpu/OverlayService.kt:169-176 | Band k holds exactly the usages between consecutive thresholds of 30/60/80. |
| `ColourBands.FpsBand` | app/src/main/java/com/monitor/cpugpu/OverlayService.kt:188-196 | Band k holds exactly the frame rates between consecutive descending thresholds of 55/45/30/20. |
| `ColourBands.BandsCountThresholds` | app/src/main/java/com/monitor/cpugpu/OverlayService.kt:169-196 | Each `when` chain equals a count of the thresholds crossed, so the bands are exhaustive and disjoint. |
| `ColourBands.Reached` | app/src/main/java/com/monitor/cpugpu/OverlayService.kt:178-186 | Counts the thresholds a reading has reached: all of them when it is at or above every threshold, none when it is below every one. |
| `ColourBands.FallenBelow` | app/src/main/java/com/monitor/cpugpu/OverlayService.kt:188-196 | Counts the thresholds a frame rate has fallen below: all when it is below every threshold, none when it is at or above every one. |
| `ColourBands.TempColour` | app/src/main/java/com/monitor/cpugpu/OverlayService.kt:178-186 | The temperature colour is the palette entry (green, light green, amber, orange, red) indexed by the number of thresholds reached. It is never grey. |
| `ColourBands.CpuUsageColour` | app/src/main/java/com/monitor/cpugpu/OverlayService.kt:169-176 | The CPU-usage colour is the palette entry (green, amber, orange, red) indexed by the number of thresholds reached. It is never grey. |
| `ColourBands.FpsColour` | app/src/main/java/com/monitor/cpugpu/OverlayService.kt:188-196 | The frame-rate colour is the palette entry (green, light green, amber, orange, red) indexed by the number of thresholds fallen below. It is never grey. |
| `ColourBands.ColoursWarmWithLoad` | app/src/main/java/com/monitor/cpugpu/OverlayService.kt:169-196 | A hotter or busier reading, or a lower frame rate, never shows a calmer colour. |
| `ColourBands.BandsAreMonotone` | app/src/main/java/com/monitor/cpugpu/OverlayService.kt:169-196 | A higher temperature or usage never gets a calmer band. A lower frame rate never gets a calmer band either. |

## Left out

- Process execution and file reads (`Runtime.exec`, `BufferedReader`) are inputs. The lines they would produce are parameters, and a failed `top` run behaves like empty output, which also gives 0.
- `String.toFloat` is an abstract partial parser. Java float syntax is not modelled.
- ThermalProbes.ZoneCelsius: divides exactly in reals. The `Float` rounding of `toFloat() / 1000f` near the bounds is not modelled.
- ThermalProbes.BatteryTemperature: divides exactly in reals. `Float` rounding is not modelled.
- CpuUsage.Tokens: drops the empty strings that Kotlin's regex split also yields. None of them ends in '%', so the scan's result is unchanged.
- ThermalStatus.HeadroomDisplay: computes `(1 - h) * 100` in reals. The platform may return NaN, which is modelled as `None`.
- OverlayService.DragMovesByPointerDelta: states the plain sum only while values fit in an `Int`. `OnTouch` itself models the saturating `toInt()` and the 32-bit wrap for all inputs. The `Float` subtraction of pointer coordinates is exact here.
- `getCurrentThermalStatus` is a synchronous platform query. Its code is an input to `ThermalStatusString` and `StatusColour`.
- `isServiceRunning`, `Settings.canDrawOverlays`, the SDK level and intent actions are inputs.
- The click handler and the permission result matter only from SDK 29 on: `onActivityResult` is an override, but the permission request it answers is started only from the click handler, and `onCreate` installs that handler only from SDK 29 on. Their inner checks for SDK 23 and 26 are therefore always true and are not modelled.
- Text formatting (`String.format`), button texts, toasts, the notification channel and foreground notification, the window flags, and concrete colour values are not modelled. Colours are an enum.
- `updateMonitoringData` and `updateOverlayData` only compose the modelled probes, parser, bands and labels with text output, so they are not modelled as separate operations. A tick's effect on the screen is abstracted.
- `getFPS` is called by the overlay but is not defined in ThermalMonitor. Only its colour band is modelled.
- Handler delays, thread hops (`runOnUiThread`) and the run order of pending posts are not modelled. A handler is a multiset of pending runnables.
- The overlay's close button (`stopSelf`) is left to the platform. The service's teardown is modelled by `OverlayService.OnDestroy`.

## Findings

| source | as written | input that shows it | evidently intended | confidence | as-written member | corrected member |
|---|---|---|---|---|---|---|
| app/src/main/java/com/monitor/cpugpu/MainActivity.kt:197-200 | `startMonitoring` sets the flag and posts `updateRunnable` with no check for a loop already running | On SDK 29 or later, `onCreate` (line 61) followed by the platform's `onResume` (line 313) leaves two update chains pending. Each one re-posts itself every second. | Starting while monitoring is a no-op, so one chain runs | medium; not executed | `MainActivity.CreateThenResumeRunsTwoChains` | `MainActivity.GuardedLoopKeepsSingleChain` |

The lifecycle functions keep the code as written. `MainActivity.StartMonitoringGuarded` is the corrected start. `MainActivity.GuardedCreateThenResumeRunsOneChain` shows that it runs a single chain on the same input.

=== FILE: colour_bands.dfy ===
/** The threshold colour bands of the two display surfaces: temperature
    (overlay and activity alike), CPU usage and frame rate. Colours are named
    after the hex codes `getTempColor` and its siblings parse; a band is its index in the palette,
    0 being the calmest. */
module ColourBands {

  /** #4CAF50, #8BC34A, #FFC107, #FF9800, #FF5722, #F44336, #B71C1C, #9E9E9E. */
  datatype Colour = Green | LightGreen | Amber | Orange | DeepOrange | Red | DarkRed | Grey

  /** How alarming a colour reads, from green (0) to dark red (6). Grey
      carries no reading and ranks below every other colour. */
  function Warmth(c: Colour): int {
    match c
    case Grey => -1
    case Green => 0
    case LightGreen => 1
    case Amber => 2
    case Orange => 3
    case DeepOrange => 4
    case Red => 5
    case DarkRed => 6
  }

  /** Temperatures at or above each threshold move up one band. */
  const TempThresholds: seq<real> := [50.0, 60.0, 70.0, 80.0]
  const TempPalette: seq<Colour> := [Green, LightGreen, Amber, Orange, Red]

  /** CPU usage percentages at or above each threshold move up one band. */
  const CpuUsageThresholds: seq<real> := [30.0, 60.0, 80.0]
  const CpuUsagePalette: seq<Colour> := [Green, Amber, Orange, Red]

  /** Frame rates below each threshold move up one band (descending thresholds). */
  const FpsThresholds: seq<real> := [55.0, 45.0, 30.0, 20.0]
  const FpsPalette: seq<Colour> := [Green, LightGreen, Amber, Orange, Red]

  /** Number of thresholds that `v` has reached. */
  function Reached(thresholds: seq<real>, v: real): (n: nat)
    ensures n <= |thresholds|
    ensures (forall i :: 0 <= i < |thresholds| ==> thresholds[i] <= v) ==> n == |thresholds|
    ensures (forall i :: 0 <= i < |thresholds| ==> v < thresholds[i]) ==> n == 0
  {
    if |thresholds| == 0 then 0
    else (if thresholds[0] <= v then 1 else 0) + Reached(thresholds[1..], v)
  }

  /** Number of thresholds that `v` falls below. */
  function FallenBelow(thresholds: seq<real>, v: real): (n: nat)
    ensures n <= |thresholds|
    ensures (forall i :: 0 <= i < |thresholds| ==> v < thresholds[i]) ==> n == |thresholds|
    ensures (forall i :: 0 <= i < |thresholds| ==> thresholds[i] <= v) ==> n == 0
  {
    if |thresholds| == 0 then 0
    else (if v < thresholds[0] then 1 else 0) + FallenBelow(thresholds[1..], v)
  }

  /** The `when` chain of `getTempColor` / `updateCPUTempColor` / `updateGPUTempColor`. */
  function TempBand(t: real): (b: nat)
    ensures b < |TempPalette|
    ensures b < |TempThresholds| ==> t < TempThresholds[b]
    ensures b > 0 ==> TempThresholds[b - 1] <= t
  {
    if t < 50.0 then 0
    else if t < 60.0 then 1
    else if t < 70.0 then 2
    else if t < 80.0 then 3
    else 4
  }

  /** The `when` chain of `getCpuUsageColor`. */
  function CpuUsageBand(u: real): (b: nat)
    ensures b < |CpuUsagePalette|
    ensures b < |CpuUsageThresholds| ==> u < CpuUsageThresholds[b]
    ensures b > 0 ==> CpuUsageThresholds[b - 1] <= u
  {
    if u < 30.0 then 0
    else if u < 60.0 then 1
    else if u < 80.0 then 2
    else 3
  }

  /** The `when` chain of `getFpsColor`. */
  function FpsBand(f: real): (b: nat)
    ensures b < |FpsPalette|
    ensures b < |FpsThresholds| ==> f >= FpsThresholds[b]
    ensures b > 0 ==> f < FpsThresholds[b - 1]
  {
    if f >= 55.0 then 0
    else if f >= 45.0 then 1
    else if f >= 30.0 then 2
    else if f >= 20.0 then 3
    else 4
  }

  /** `getTempColor`: the palette entry for the number of thresholds reached. */
  function TempColour(t: real): (c: Colour)
    ensures c == TempPalette[Reached(TempThresholds, t)]
    ensures c != Grey
  {
    BandsCountThresholds(t);
    TempPalette[TempBand(t)]
  }

  /** `getCpuUsageColor`: the palette entry for the number of thresholds reached. */
  function CpuUsageColour(u: real): (c: Colour)
    ensures c == CpuUsagePalette[Reached(CpuUsageThresholds, u)]
    ensures c != Grey
  {
    BandsCountThresholds(u);
    CpuUsagePalette[CpuUsageBand(u)]
  }

  /** `getFpsColor`: the palette entry for the number of thresholds fallen below. */
  function FpsColour(f: real): (c: Colour)
    ensures c == FpsPalette[FallenBelow(FpsThresholds, f)]
    ensures c != Grey
  {
    BandsCountThresholds(f);
    FpsPalette[FpsBand(f)]
  }

  /** Each chain agrees with counting the thresholds crossed, so its bands
      are exactly the intervals between consecutive thresholds. */
  lemma BandsCountThresholds(v: real)
    ensures TempBand(v) == Reached(TempThresholds, v)
    ensures CpuUsageBand(v) == Reached(CpuUsageThresholds, v)
    ensures FpsBand(v) == FallenBelow(FpsThresholds, v)
  {
    assert [50.0, 60.0, 70.0, 80.0][1..] == [60.0, 70.0, 80.0];
    assert [60.0, 70.0, 80.0][1..] == [70.0, 80.0];
    assert [70.0, 80.0][1..] == [80.0];
    assert [80.0][1..] == [];
    assert Reached([80.0], v) == if 80.0 <= v then 1 else 0;
    var t2 := Reached([70.0, 80.0], v);
    assert t2 == (if 70.0 <= v then 1 else 0) + (if 80.0 <= v then 1 else 0);
    var t3 := Reached([60.0, 70.0, 80.0], v);
    assert t3 == (if 60.0 <= v then 1 else 0) + t2;
    assert Reached(TempThresholds, v) == (if 50.0 <= v then 1 else 0) + t3;
    assert [30.0, 60.0, 80.0][1..] == [60.0, 80.0];
    assert [60.0, 80.0][1..] == [80.0];
    assert [55.0, 45.0, 30.0, 20.0][1..] == [45.0, 30.0, 20.0];
    assert [45.0, 30.0, 20.0][1..] == [30.0, 20.0];
    assert [30.0, 20.0][1..] == [20.0];
    assert [20.0][1..] == [];
    assert FallenBelow([20.0], v) == if v < 20.0 then 1 else 0;
    var f2 := FallenBelow([30.0, 20.0], v);
    assert f2 == (if v < 30.0 then 1 else 0) + (if v < 20.0 then 1 else 0);
    var f3 := FallenBelow([45.0, 30.0, 20.0], v);
    assert f3 == (if v < 45.0 then 1 else 0) + f2;
    assert FallenBelow(FpsThresholds, v) == (if v < 55.0 then 1 else 0) + f3;
  }

  /** A hotter or busier reading never gets a calmer colour; a lower frame
      rate never gets a calmer one either. */
  lemma BandsAreMonotone(v: real, w: real)
    requires v <= w
    ensures TempBand(v) <= TempBand(w)
    ensures CpuUsageBand(v) <= CpuUsageBand(w)
    ensures FpsBand(w) <= FpsBand(v)
  {
  }

  /** The colours warm up with the bands: a hotter or busier reading, or a
      lower frame rate, never shows a calmer colour. */
  lemma ColoursWarmWithLoad(v: real, w: real)
    requires v <= w
    ensures Warmth(TempColour(v)) <= Warmth(TempColour(w))
    ensures Warmth(CpuUsageColour(v)) <= Warmth(CpuUsageColour(w))
    ensures Warmth(FpsColour(w)) <= Warmth(FpsColour(v))
  {
    BandsAreMonotone(v, w);
  }
}

=== FILE: cpu_usage.dfy ===
/** `getCPUUsage`: the percentage shown for CPU load, read from the output
    of `top -n 1`. The output is an input here: the sequence of its lines,
    empty when the process cannot be started (`getCPUUsage` then also reports
    0). Only the first line mentioning "CPU:" or "cpu" is examined; in it the
    first whitespace-separated token that ends in '%' and parses once every
    '%' is removed gives the value, which is not clamped. */
module CpuUsage {
  import opened Options

  /** Numeric parsing as a partial function: `None` where `toFloat` throws. */
  type Parser = string -> Option<real>

  /** The regex class `\s`: space, tab, line feed, vertical tab, form feed, carriage return. */
  predicate IsWhitespace(c: char) {
    c == ' ' || c == '\t' || c == '\n' || c == '\U{0B}' || c == '\U{0C}' || c == '\r'
  }

  predicate NoWhitespace(s: string) {
    forall i :: 0 <= i < |s| ==> !IsWhitespace(s[i])
  }

  /** A piece of a split line: non-empty and free of whitespace. */
  predicate IsToken(s: string) {
    |s| > 0 && NoWhitespace(s)
  }

  /** `s` contains `pattern` as a contiguous piece (Kotlin's `contains`, case-sensitive). */
  predicate Contains(s: string, pattern: string)
    decreases |s|
  {
    if pattern <= s then true
    else if |s| == 0 then false
    else Contains(s[1..], pattern)
  }

  /** `Contains` finds the pattern wherever it starts. */
  lemma {:induction false} ContainsAt(s: string, pattern: string, i: nat)
    requires i <= |s| && pattern <= s[i..]
    ensures Contains(s, pattern)
    decreases i
  {
    if i > 0 && !(pattern <= s) {
      assert s[1..][i - 1..] == s[i..];
      ContainsAt(s[1..], pattern, i - 1);
    }
  }

  /** `Contains` finds the pattern only where it occurs. */
  lemma {:induction false} ContainsOnlyWhereFound(s: string, pattern: string)
    requires Contains(s, pattern)
    ensures exists i :: 0 <= i <= |s| && pattern <= s[i..]
    decreases |s|
  {
    if pattern <= s {
      assert s[0..] == s;
    } else {
      ContainsOnlyWhereFound(s[1..], pattern);
      var i :| 0 <= i <= |s[1..]| && pattern <= s[1..][i..];
      assert s[1..][i..] == s[i + 1..];
    }
  }

  /** The line filter of the scan. */
  predicate IsUsageLine(line: string) {
    Contains(line, "CPU:") || Contains(line, "cpu")
  }

  /** The characters of `s` that are not whitespace, in order. */
  function Squeeze(s: string): (r: string)
    ensures NoWhitespace(r)
  {
    if |s| == 0 then []
    else if IsWhitespace(s[0]) then Squeeze(s[1..])
    else [s[0]] + Squeeze(s[1..])
  }

  function Concat(words: seq<string>): string {
    if |words| == 0 then [] else words[0] + Concat(words[1..])
  }

  lemma {:induction false} ConcatAppend(a: seq<string>, b: seq<string>)
    ensures Concat(a + b) == Concat(a) + Concat(b)
    decreases |a|
  {
    if |a| == 0 {
      assert a + b == b;
    } else {
      assert (a + b)[1..] == a[1..] + b;
      ConcatAppend(a[1..], b);
    }
  }

  function Flush(word: string): seq<string> {
    if word == [] then [] else [word]
  }

  lemma ConcatFlush(word: string)
    ensures Concat(Flush(word)) == word
  {
    if word != [] {
      assert Concat([word]) == word + Concat([]);
    }
  }

  /** Splitting on runs of whitespace; `word` is the piece read so far. */
  function SplitFrom(rest: string, word: string): (r: seq<string>)
    requires NoWhitespace(word)
    ensures Concat(r) == word + Squeeze(rest)
    decreases |rest|
  {
    ConcatFlush(word);
    if |rest| == 0 then
      Flush(word)
    else if IsWhitespace(rest[0]) then
      ConcatAppend(Flush(word), SplitFrom(rest[1..], []));
      Flush(word) + SplitFrom(rest[1..], [])
    else
      AppendKeepsNoWhitespace(word, rest[0]);
      SplitFrom(rest[1..], word + [rest[0]])
  }

  /** Every piece of a split is a token. */
  lemma {:induction false} SplitFromTokens(rest: string, word: string)
    requires NoWhitespace(word)
    ensures forall k :: 0 <= k < |SplitFrom(rest, word)| ==> IsToken(SplitFrom(rest, word)[k])
    decreases |rest|
  {
    if |rest| > 0 {
      if IsWhitespace(rest[0]) {
        SplitFromTokens(rest[1..], []);
      } else {
        AppendKeepsNoWhitespace(word, rest[0]);
        SplitFromTokens(rest[1..], word + [rest[0]]);
      }
    }
  }

  lemma AppendKeepsNoWhitespace(word: string, c: char)
    requires NoWhitespace(word) && !IsWhitespace(c)
    ensures NoWhitespace(word + [c])
  {
    assert forall i :: 0 <= i < |word| ==> (word + [c])[i] == word[i];
  }

  /** `line.split("\\s+".toRegex())` without its empty pieces. The empty
      pieces the Kotlin split also produces (before leading whitespace, after
      trailing whitespace) never end in '%', so the scan ignores them either way. */
  function Tokens(line: string): (r: seq<string>)
    ensures forall k :: 0 <= k < |r| ==> IsToken(r[k])
    ensures Concat(r) == Squeeze(line)
  {
    SplitFromTokens(line, []);
    SplitFrom(line, [])
  }

  /** Words separated by single spaces. */
  function Join(words: seq<string>): string {
    if |words| == 0 then []
    else if |words| == 1 then words[0]
    else words[0] + " " + Join(words[1..])
  }

  lemma {:induction false} SplitWord(w: string, rest: string, word: string)
    requires NoWhitespace(w) && NoWhitespace(word)
    ensures SplitFrom(w + rest, word) == SplitFrom(rest, word + w)
    decreases |w|
  {
    if |w| == 0 {
      assert w + rest == rest && word + w == word;
    } else {
      assert (w + rest)[0] == w[0];
      assert (w + rest)[1..] == w[1..] + rest;
      SplitWord(w[1..], rest, word + [w[0]]);
      assert word + [w[0]] + w[1..] == word + w;
    }
  }

  /** Splitting undoes joining: the tokens of words joined by spaces are the words. */
  lemma {:induction false} TokensOfJoin(words: seq<string>)
    requires forall k :: 0 <= k < |words| ==> IsToken(words[k])
    ensures Tokens(Join(words)) == words
    decreases |words|
  {
    if |words| == 0 {
    } else if |words| == 1 {
      SplitWord(words[0], [], []);
      assert words[0] + [] == words[0];
      assert [] + words[0] == words[0];
    } else {
      var w, j := words[0], Join(words[1..]);
      assert Join(words) == w + (" " + j);
      SplitWord(w, " " + j, []);
      assert [] + w == w;
      assert (" " + j)[1..] == j;
      TokensOfJoin(words[1..]);
      assert [w] + words[1..] == words;
    }
  }

  /** Every character of `s` is whitespace (possibly none). */
  predicate AllWhitespace(s: string) {
    forall i :: 0 <= i < |s| ==> IsWhitespace(s[i])
  }

  /** Words laid out between gaps: `gaps[0] + words[0] + gaps[1] + ... + gaps[n]`. */
  function Layout(words: seq<string>, gaps: seq<string>): string
    requires |gaps| == |words| + 1
    decreases |words|
  {
    if |words| == 0 then gaps[0] else gaps[0] + words[0] + Layout(words[1..], gaps[1..])
  }

  /** Leading whitespace contributes no piece. */
  lemma {:induction false} SkipWhitespace(ws: string, rest: string)
    requires AllWhitespace(ws)
    ensures SplitFrom(ws + rest, []) == SplitFrom(rest, [])
    decreases |ws|
  {
    if |ws| > 0 {
      assert (ws + rest)[0] == ws[0];
      assert (ws + rest)[1..] == ws[1..] + rest;
      assert IsWhitespace((ws + rest)[0]);
      assert SplitFrom(ws + rest, []) == Flush([]) + SplitFrom(ws[1..] + rest, []);
      assert Flush([]) + SplitFrom(ws[1..] + rest, []) == SplitFrom(ws[1..] + rest, []);
      SkipWhitespace(ws[1..], rest);
    } else {
      assert ws + rest == rest;
    }
  }

  /** A piece ends at whitespace or at the end of the line. */
  lemma BreakAt(s: string, word: string)
    requires IsToken(word)
    requires |s| == 0 || IsWhitespace(s[0])
    ensures SplitFrom(s, word) == [word] + SplitFrom(s, [])
  {
  }

  /** One word after optional whitespace, followed by whitespace or the end. */
  lemma SplitOneWord(gap: string, w: string, y: string)
    requires AllWhitespace(gap) && IsToken(w)
    requires |y| == 0 || IsWhitespace(y[0])
    ensures Tokens(gap + (w + y)) == [w] + Tokens(y)
  {
    SkipWhitespace(gap, w + y);
    SplitWord(w, y, []);
    assert [] + w == w;
    BreakAt(y, w);
  }

  /** The pieces of a line are its maximal whitespace-free runs: however long
      the runs of whitespace between words, and with or without whitespace
      at either end, the split gives back exactly the words. */
  lemma {:induction false} TokensOfLayout(words: seq<string>, gaps: seq<string>)
    requires |gaps| == |words| + 1
    requires forall k :: 0 <= k < |words| ==> IsToken(words[k])
    requires forall k :: 0 <= k < |gaps| ==> AllWhitespace(gaps[k])
    requires forall k :: 0 < k < |words| ==> |gaps[k]| > 0
    ensures Tokens(Layout(words, gaps)) == words
    decreases |words|
  {
    if |words| == 0 {
      assert Layout(words, gaps) == gaps[0] + [];
      SkipWhitespace(gaps[0], []);
    } else {
      var y := Layout(words[1..], gaps[1..]);
      assert Layout(words, gaps) == gaps[0] + (words[0] + y);
      assert |words| > 1 ==> y == gaps[1] + words[1] + Layout(words[2..], gaps[2..]);
      SplitOneWord(gaps[0], words[0], y);
      TokensOfLayout(words[1..], gaps[1..]);
      assert [words[0]] + words[1..] == words;
    }
  }

  /** `replace("%", "")`: the token with every '%' removed. */
  function StripPercent(t: string): (r: string)
    ensures '%' !in r
    ensures '%' !in t ==> r == t
    ensures |r| <= |t|
  {
    if |t| == 0 then []
    else (if t[0] == '%' then [] else [t[0]]) + StripPercent(t[1..])
  }

  /** Removal keeps the order of what remains: it works piece by piece. */
  lemma {:induction false} StripPercentAppend(a: string, b: string)
    ensures StripPercent(a + b) == StripPercent(a) + StripPercent(b)
    decreases |a|
  {
    if |a| == 0 {
      assert a + b == b;
    } else {
      var kept := if a[0] == '%' then [] else [a[0]];
      assert (a + b)[0] == a[0] && (a + b)[1..] == a[1..] + b;
      assert StripPercent(a + b) == kept + StripPercent(a[1..] + b);
      StripPercentAppend(a[1..], b);
      assert kept + (StripPercent(a[1..]) + StripPercent(b)) == (kept + StripPercent(a[1..])) + StripPercent(b);
    }
  }

  /** A number followed by its one '%' sign is read as that number. */
  lemma StripTrailingPercent(t: string)
    ensures EndsWithPercent(t) && '%' !in t[..|t| - 1] ==> StripPercent(t) == t[..|t| - 1]
  {
    if !EndsWithPercent(t) || '%' in t[..|t| - 1] {
      return;
    }
    var number := t[..|t| - 1];
    assert t == number + "%";
    StripPercentAppend(number, "%");
    assert StripPercent("%") == [] by {
      assert "%"[0] == '%' && "%"[1..] == [];
    }
    assert number + [] == number;
  }

  predicate EndsWithPercent(t: string) {
    |t| > 0 && t[|t| - 1] == '%'
  }

  /** What one token contributes: its value when it ends in '%' and parses without its '%'s. */
  function PercentValue(parse: Parser, t: string): (r: Option<real>)
    ensures !EndsWithPercent(t) ==> r.None?
    ensures EndsWithPercent(t) && '%' !in t[..|t| - 1] ==> r == parse(t[..|t| - 1])
  {
    StripTrailingPercent(t);
    if EndsWithPercent(t) then parse(StripPercent(t)) else None
  }

  /** The value a usage line yields: its first '%' token that parses. */
  function LineUsage(parse: Parser, line: string): (r: Option<real>)
    ensures r.None? <==> forall k :: 0 <= k < |Tokens(line)| ==> PercentValue(parse, Tokens(line)[k]).None?
    ensures r.Some? ==>
      exists k :: 0 <= k < |Tokens(line)| && r == PercentValue(parse, Tokens(line)[k])
        && EndsWithPercent(Tokens(line)[k])
        && forall j :: 0 <= j < k ==> PercentValue(parse, Tokens(line)[j]).None?
  {
    var tokens := Tokens(line);
    var value := (t: string) => PercentValue(parse, t);
    var k := FirstIndex(tokens, value);
    if k.Some? then
      assert value(tokens[k.value]) == PercentValue(parse, tokens[k.value]);
      value(tokens[k.value])
    else
      assert forall j :: 0 <= j < |tokens| ==> value(tokens[j]) == PercentValue(parse, tokens[j]);
      None
  }

  /** Line `k` is the first usage line. */
  predicate IsFirstUsageLine(lines: seq<string>, k: nat) {
    k < |lines| && IsUsageLine(lines[k]) && forall j :: 0 <= j < k ==> !IsUsageLine(lines[j])
  }

  function AsUsageLine(line: string): Option<string> {
    if IsUsageLine(line) then Some(line) else None
  }

  /** Position of the first usage line, if any. */
  function FirstUsageLine(lines: seq<string>): (r: Option<nat>)
    ensures r.Some? ==> IsFirstUsageLine(lines, r.value)
    ensures r.None? ==> forall j :: 0 <= j < |lines| ==> !IsUsageLine(lines[j])
  {
    var k := FirstIndex(lines, AsUsageLine);
    assert forall j :: 0 <= j < |lines| ==> (AsUsageLine(lines[j]).None? <==> !IsUsageLine(lines[j]));
    k
  }

  /** The reported CPU usage: from the first usage line, 0 when there is
      none or when it holds no usable '%' token. */
  function CpuUsage(parse: Parser, lines: seq<string>): (r: real)
    ensures (forall j :: 0 <= j < |lines| ==> !IsUsageLine(lines[j])) ==> r == 0.0
    ensures forall k: nat :: IsFirstUsageLine(lines, k) ==> r == LineUsage(parse, lines[k]).GetOr(0.0)
  {
    match FirstUsageLine(lines)
    case Some(k) => LineUsage(parse, lines[k]).GetOr(0.0)
    case None => 0.0
  }

  /** The loop of `getCPUUsage`: read lines until the first usage line, scan
      its tokens until one ending in '%' parses, then stop. */
  method ScanTopOutput(parse: Parser, lines: seq<string>) returns (cpuUsage: real)
    ensures cpuUsage == CpuUsage(parse, lines)
  {
    cpuUsage := 0.0;
    var n := 0;
    while n < |lines|
      invariant 0 <= n <= |lines|
      invariant forall j :: 0 <= j < n ==> !IsUsageLine(lines[j])
      invariant cpuUsage == 0.0
    {
      var line := lines[n];
      if IsUsageLine(line) {
        assert IsFirstUsageLine(lines, n);
        var parts := Tokens(line);
        var i := 0;
        while i < |parts|
          invariant 0 <= i <= |parts|
          invariant forall j :: 0 <= j < i ==> PercentValue(parse, parts[j]).None?
          invariant cpuUsage == 0.0
        {
          if EndsWithPercent(parts[i]) {
            var v := parse(StripPercent(parts[i]));
            if v.Some? {
              cpuUsage := v.value;
              FirstPercentTokenWins(parse, line, i);
              return;
            }
          }
          i := i + 1;
        }
        return;
      }
      n := n + 1;
    }
  }

  /** Lines after the first usage line are never looked at, nor are the
      non-usage lines before it. */
  lemma OnlyFirstUsageLineCounts(parse: Parser, before: seq<string>, line: string, after: seq<string>)
    requires forall j :: 0 <= j < |before| ==> !IsUsageLine(before[j])
    requires IsUsageLine(line)
    ensures CpuUsage(parse, before + [line] + after) == LineUsage(parse, line).GetOr(0.0)
  {
    var lines := before + [line] + after;
    assert lines[|before|] == line;
    assert forall j :: 0 <= j < |before| ==> lines[j] == before[j];
  }

  /** A line whose percentages are glued to their labels ("12%user") offers
      no token ending in '%', so it yields 0 even though it mentions "cpu". */
  lemma GluedPercentagesYieldZero(parse: Parser)
    ensures CpuUsage(parse, ["800%cpu", "12%user"]) == 0.0
    ensures CpuUsage(parse, [Join(["800%cpu", "12%user"])]) == 0.0
  {
    var words := ["800%cpu", "12%user"];
    assert IsToken(words[0]) && IsToken(words[1]);
    TokensOfJoin(words);
    assert IsUsageLine(Join(words)) by {
      assert "cpu" <= Join(words)[4..];
      ContainsAt(Join(words), "cpu", 4);
    }
    assert IsUsageLine("800%cpu") by {
      assert "cpu" <= "800%cpu"[4..];
      ContainsAt("800%cpu", "cpu", 4);
    }
    assert Tokens("800%cpu") == ["800%cpu"] by {
      TokensOfJoin(["800%cpu"]);
    }
    assert !EndsWithPercent("800%cpu") && !EndsWithPercent("12%user");
  }

  /** A '%' token that parses, with none before it, gives the line's value. */
  lemma FirstPercentTokenWins(parse: Parser, line: string, k: nat)
    requires k < |Tokens(line)| && PercentValue(parse, Tokens(line)[k]).Some?
    requires forall j :: 0 <= j < k ==> PercentValue(parse, Tokens(line)[j]).None?
    ensures LineUsage(parse, line) == PercentValue(parse, Tokens(line)[k])
  {
    FirstIndexAt(Tokens(line), (t: string) => PercentValue(parse, t), k);
  }

  /** A line "<name> <number>%" yields the parse of the number. */
  lemma LabelledPercentLine(parse: Parser, name: string, number: string)
    requires IsToken(name) && !EndsWithPercent(name)
    requires NoWhitespace(number) && '%' !in number
    ensures LineUsage(parse, name + " " + number + "%") == parse(number)
  {
    var t := number + "%";
    var line := name + " " + number + "%";
    assert IsToken(t) by {
      assert forall i :: 0 <= i < |number| ==> t[i] == number[i];
    }
    assert [name, t][1..] == [t];
    assert Join([name, t]) == line;
    TokensOfJoin([name, t]);
    assert t[..|t| - 1] == number;
    StripTrailingPercent(t);
    if parse(number).Some? {
      FirstPercentTokenWins(parse, line, 1);
    } else {
      assert forall k :: 0 <= k < |Tokens(line)| ==> PercentValue(parse, Tokens(line)[k]).None?;
    }
  }

  /** The line "cpu 250%" yields 250. */
  lemma UnclampedLineValue(parse: Parser)
    requires parse("250") == Some(250.0)
    ensures LineUsage(parse, "cpu 250%") == Some(250.0)
  {
    assert "cpu 250%" == "cpu" + " " + "250" + "%";
    assert IsToken("cpu") && !EndsWithPercent("cpu");
    assert NoWhitespace("250") && '%' !in "250";
    LabelledPercentLine(parse, "cpu", "250");
  }

  /** A value above 100 is reported as-is. */
  lemma UsageIsNotClamped(parse: Parser)
    requires parse("250") == Some(250.0)
    ensures CpuUsage(parse, ["cpu 250%"]) == 250.0
  {
    var line := "cpu 250%";
    UnclampedLineValue(parse);
    assert IsUsageLine(line) by {
      assert "cpu" <= line;
    }
    OnlyFirstUsageLineCounts(parse, [], line, []);
    assert [] + [line] + [] == ["cpu 250%"];
  }
}

=== FILE: looper.dfy ===
/** The main-thread message queue as seen by one `Handler` object: the
    multiset of its posted runnables not yet run. Delays are not modelled;
    `post` and `postDelayed` both add one pending entry. */
module Looper {

  /** The two runnables the app posts: the activity's and the overlay's `updateRunnable`. */
  datatype Runnable = ActivityUpdate | OverlayUpdate

  datatype Handler = Handler(pending: multiset<Runnable>)

  const Idle: Handler := Handler(multiset{})

  /** `post(r)` / `postDelayed(r, delay)`. */
  function Post(h: Handler, r: Runnable): (h': Handler)
    ensures h'.pending[r] == h.pending[r] + 1
    ensures forall q :: q != r ==> h'.pending[q] == h.pending[q]
  {
    Handler(h.pending + multiset{r})
  }

  /** `removeCallbacks(r)`: drops every pending post of `r` and nothing else. */
  function RemoveCallbacks(h: Handler, r: Runnable): (h': Handler)
    ensures r !in h'.pending
    ensures forall q :: q != r ==> h'.pending[q] == h.pending[q]
  {
    Handler(h.pending[r := 0])
  }

  /** The looper takes one pending post of `r` off the queue to run it. */
  function Dispatch(h: Handler, r: Runnable): (h': Handler)
    requires r in h.pending
    ensures h'.pending[r] == h.pending[r] - 1
    ensures forall q :: q != r ==> h'.pending[q] == h.pending[q]
  {
    Handler(h.pending - multiset{r})
  }
}

=== FILE: main_activity.dfy ===
/** The in-app screen: the reconciliation of the persisted "overlay active"
    flag with the running service, every toggle path writing that flag
    through to the store, and the self-rescheduling monitoring loop with the
    lifecycle callbacks that start and stop it.

    The platform's collaborators are inputs: whether the overlay service is
    running, whether overlay permission is granted, the SDK level and the
    action of a received intent. Starting or stopping the service and
    asking for permission are recorded as effects. Button texts and toasts
    are not modelled. */
module MainActivity {
  import opened Options
  import L = ThermalListeners
  import Looper
  import OverlayService
  import ThermalStatus

  const OverlayPermissionRequestCode: int := 1001

  /** The "overlay_active" key of the "OverlayPrefs" store: its value when
      the activity started (`None` if never written) and the writes since. */
  datatype Prefs = Prefs(initial: Option<bool>, writes: seq<bool>)

  /** `getBoolean(KEY_OVERLAY_ACTIVE, false)`: the last write, else the initial value, else false. */
  function Saved(p: Prefs): (r: bool)
    ensures |p.writes| == 0 ==> (r <==> p.initial == Some(true))
    ensures |p.writes| > 0 ==> r == p.writes[|p.writes| - 1]
  {
    if |p.writes| > 0 then p.writes[|p.writes| - 1] else p.initial.GetOr(false)
  }

  /** `putBoolean(KEY_OVERLAY_ACTIVE, v).apply()`. */
  function Write(p: Prefs, v: bool): (r: Prefs)
    ensures Saved(r) == v
    ensures r.initial == p.initial && |r.writes| == |p.writes| + 1
  {
    Prefs(p.initial, p.writes + [v])
  }

  /** Requests the activity makes of the platform. */
  datatype Effect = StartOverlay | StopOverlay | RequestOverlayPermission

  datatype Activity = Activity(
    isMonitoring: bool,
    isOverlayActive: bool,
    prefs: Prefs,
    handler: Looper.Handler,
    monitor: L.Monitor,
    receiverRegistered: bool,
    effects: seq<Effect>)

  /** The activity's status callback, handed to its thermal monitor. */
  const ShowStatus: L.CallbackId := 0

  /** A freshly constructed activity over an existing store. */
  function Initial(p: Prefs): Activity {
    Activity(false, false, p, Looper.Idle, L.Fresh, false, [])
  }

  /** The persisted flag agrees with what the activity believes. */
  predicate InSync(a: Activity) {
    Saved(a.prefs) == a.isOverlayActive
  }

  // ---------------------------------------------------------------------
  // Activation reconciliation and toggles
  // ---------------------------------------------------------------------

  /** The outcome of reconciling the saved flag with reality: the effective
      state, and whether the store must be corrected to false. */
  datatype Reconciliation = Reconciliation(effective: bool, persistFalse: bool)

  function Reconcile(saved: bool, running: bool): (r: Reconciliation)
    ensures r.effective ==> saved && running
    ensures r.persistFalse ==> !r.effective
    ensures r.effective || r.persistFalse || !saved
  {
    Reconciliation(saved && running, saved && !running)
  }

  /** `restoreOverlayState`, with `running` the answer of `isServiceRunning`. */
  function RestoreOverlayState(a: Activity, running: bool): (r: Activity)
    ensures r.isOverlayActive <==> Saved(a.prefs) && running
    ensures Saved(a.prefs) && !running ==> r.prefs == Write(a.prefs, false)
    ensures !(Saved(a.prefs) && !running) ==> r.prefs == a.prefs
    ensures InSync(r)
    ensures r.isMonitoring == a.isMonitoring && r.handler == a.handler && r.monitor == a.monitor
    ensures r.receiverRegistered == a.receiverRegistered && r.effects == a.effects
  {
    var rec := Reconcile(Saved(a.prefs), running);
    var prefs := if rec.persistFalse then Write(a.prefs, false) else a.prefs;
    a.(isOverlayActive := rec.effective, prefs := prefs)
  }

  /** The three cases of reconciliation. */
  lemma ReconcileCases()
    ensures Reconcile(true, false) == Reconciliation(false, true)
    ensures Reconcile(true, true) == Reconciliation(true, false)
    ensures Reconcile(false, true) == Reconciliation(false, false)
    ensures Reconcile(false, false) == Reconciliation(false, false)
  {
  }

  /** `saveOverlayState`. */
  function SaveOverlayState(a: Activity): (r: Activity)
    ensures InSync(r)
    ensures r.prefs == Write(a.prefs, a.isOverlayActive)
    ensures r.isOverlayActive == a.isOverlayActive
    ensures r.isMonitoring == a.isMonitoring && r.handler == a.handler && r.monitor == a.monitor
    ensures r.receiverRegistered == a.receiverRegistered && r.effects == a.effects
  {
    a.(prefs := Write(a.prefs, a.isOverlayActive))
  }

  /** `startOverlayService`. */
  function StartOverlayService(a: Activity): (r: Activity)
    ensures r.isOverlayActive && Saved(r.prefs)
    ensures r.prefs == Write(a.prefs, true)
    ensures r.effects == a.effects + [StartOverlay]
    ensures r.isMonitoring == a.isMonitoring && r.handler == a.handler && r.monitor == a.monitor
    ensures r.receiverRegistered == a.receiverRegistered
  {
    SaveOverlayState(a.(isOverlayActive := true, effects := a.effects + [StartOverlay]))
  }

  /** `stopOverlayService`. */
  function StopOverlayService(a: Activity): (r: Activity)
    ensures !r.isOverlayActive && !Saved(r.prefs)
    ensures r.prefs == Write(a.prefs, false)
    ensures r.effects == a.effects + [StopOverlay]
    ensures r.isMonitoring == a.isMonitoring && r.handler == a.handler && r.monitor == a.monitor
    ensures r.receiverRegistered == a.receiverRegistered
  {
    SaveOverlayState(a.(isOverlayActive := false, effects := a.effects + [StopOverlay]))
  }

  /** `overlayStoppedReceiver.onReceive`; `None` is a null intent or action. */
  function OnReceive(a: Activity, action: Option<string>): (r: Activity)
    ensures action == Some(OverlayService.ActionOverlayStopped) ==>
      !r.isOverlayActive && r.prefs == Write(a.prefs, false) && r.effects == a.effects
    ensures action != Some(OverlayService.ActionOverlayStopped) ==> r == a
    ensures r.isMonitoring == a.isMonitoring && r.handler == a.handler && r.monitor == a.monitor
    ensures r.receiverRegistered == a.receiverRegistered
  {
    if action == Some(OverlayService.ActionOverlayStopped) then SaveOverlayState(a.(isOverlayActive := false))
    else a
  }

  /** The toggle button's click handler; `canDraw` is `Settings.canDrawOverlays`. */
  function OnClick(a: Activity, canDraw: bool): (r: Activity)
    ensures a.isOverlayActive ==> r == StopOverlayService(a)
    ensures !a.isOverlayActive && canDraw ==> r == StartOverlayService(a)
    ensures !a.isOverlayActive && !canDraw ==>
      r == a.(effects := a.effects + [RequestOverlayPermission])
    ensures r.isOverlayActive == (!a.isOverlayActive && canDraw)
  {
    if a.isOverlayActive then StopOverlayService(a)
    else if canDraw then StartOverlayService(a)
    else a.(effects := a.effects + [RequestOverlayPermission])
  }

  /** `onActivityResult`: a granted permission request starts the overlay. */
  function OnActivityResult(a: Activity, requestCode: int, canDraw: bool): (r: Activity)
    ensures requestCode == OverlayPermissionRequestCode && canDraw ==>
      && r.isOverlayActive && Saved(r.prefs) && |r.prefs.writes| == |a.prefs.writes| + 1
      && r.prefs == Write(a.prefs, true)
      && r.effects == a.effects + [StartOverlay]
    ensures !(requestCode == OverlayPermissionRequestCode && canDraw) ==> r == a
    ensures r.isMonitoring == a.isMonitoring && r.handler == a.handler && r.monitor == a.monitor
    ensures r.receiverRegistered == a.receiverRegistered
  {
    if requestCode == OverlayPermissionRequestCode && canDraw then StartOverlayService(a) else a
  }

  /** Every toggle path writes through: once the flag and the store agree,
      no click, permission result or broadcast makes them disagree, and the
      paths that change the flag each append exactly one write. */
  lemma TogglesKeepStoreInSync(a: Activity, canDraw: bool, requestCode: int, action: Option<string>)
    requires InSync(a)
    ensures InSync(OnClick(a, canDraw))
    ensures InSync(OnActivityResult(a, requestCode, canDraw))
    ensures InSync(OnReceive(a, action))
    ensures OnClick(a, canDraw).isOverlayActive != a.isOverlayActive ==>
      |OnClick(a, canDraw).prefs.writes| == |a.prefs.writes| + 1
  {
  }

  // ---------------------------------------------------------------------
  // The monitoring loop
  // ---------------------------------------------------------------------

  /** Posts of `updateRunnable` pending on the activity's handler. */
  function Pending(a: Activity): nat {
    a.handler.pending[Looper.ActivityUpdate]
  }

  /** The loop's invariant: a tick is pending exactly while monitoring. */
  predicate LoopAlive(a: Activity) {
    a.isMonitoring <==> Pending(a) > 0
  }

  /** `startMonitoring`: no guard, so every call adds a tick chain. */
  function StartMonitoring(a: Activity): (r: Activity)
    ensures r.isMonitoring && Pending(r) == Pending(a) + 1
    ensures LoopAlive(r)
    ensures r.isOverlayActive == a.isOverlayActive && r.prefs == a.prefs && r.monitor == a.monitor
    ensures r.receiverRegistered == a.receiverRegistered && r.effects == a.effects
  {
    a.(isMonitoring := true, handler := Looper.Post(a.handler, Looper.ActivityUpdate))
  }

  /** `stopMonitoring`: clear the flag, drop every pending tick, and, from
      SDK 29 on, stop the thermal monitor. */
  function StopMonitoring(a: Activity, sdk: int): (r: Activity)
    ensures !r.isMonitoring && Pending(r) == 0
    ensures LoopAlive(r)
    ensures sdk >= ThermalStatus.SdkQ ==> r.monitor == L.Stop(a.monitor)
    ensures sdk < ThermalStatus.SdkQ ==> r.monitor == a.monitor
    ensures r.isOverlayActive == a.isOverlayActive && r.prefs == a.prefs
    ensures r.receiverRegistered == a.receiverRegistered && r.effects == a.effects
  {
    var stopped := a.(isMonitoring := false, handler := Looper.RemoveCallbacks(a.handler, Looper.ActivityUpdate));
    if sdk >= ThermalStatus.SdkQ then stopped.(monitor := L.Stop(a.monitor)) else stopped
  }

  /** One run of `updateRunnable`: refresh the screen, then post itself
      again only while monitoring. */
  function RunUpdate(a: Activity): (r: Activity)
    requires Looper.ActivityUpdate in a.handler.pending
    ensures r.isMonitoring == a.isMonitoring
    ensures Pending(r) == if a.isMonitoring then Pending(a) else Pending(a) - 1
    ensures LoopAlive(a) ==> LoopAlive(r)
    ensures r.isOverlayActive == a.isOverlayActive && r.prefs == a.prefs && r.monitor == a.monitor
    ensures r.receiverRegistered == a.receiverRegistered && r.effects == a.effects
  {
    var taken := a.(handler := Looper.Dispatch(a.handler, Looper.ActivityUpdate));
    if a.isMonitoring then taken.(handler := Looper.Post(taken.handler, Looper.ActivityUpdate)) else taken
  }

  /** While monitoring, any number of ticks leaves the number of chains unchanged. */
  function RunUpdates(a: Activity, n: nat): (r: Activity)
    requires a.isMonitoring && Pending(a) > 0
    ensures r.isMonitoring && Pending(r) == Pending(a)
    ensures r.monitor == a.monitor && r.prefs == a.prefs && r.isOverlayActive == a.isOverlayActive
    ensures r.receiverRegistered == a.receiverRegistered && r.effects == a.effects
    decreases n
  {
    if n == 0 then a else RunUpdates(RunUpdate(a), n - 1)
  }

  // ---------------------------------------------------------------------
  // Lifecycle
  // ---------------------------------------------------------------------

  /** `onCreate`; `running` is whether the overlay service is running. From
      SDK 29 on a new thermal monitor is built and subscribed; below SDK 29
      only placeholder texts are set. */
  function OnCreate(a: Activity, sdk: int, running: bool): (r: Activity)
    ensures sdk < ThermalStatus.SdkQ ==> r == a
    ensures sdk >= ThermalStatus.SdkQ ==>
      && r.isMonitoring && Pending(r) == Pending(a) + 1
      && r.monitor == L.Start(L.Fresh, ShowStatus) && r.monitor.listener.Some? && L.Valid(r.monitor)
      && r.receiverRegistered && InSync(r)
      && (r.isOverlayActive <==> Saved(a.prefs) && running)
      && r.effects == a.effects
  {
    if sdk >= ThermalStatus.SdkQ then
      var subscribed := a.(monitor := L.Start(L.Fresh, ShowStatus));
      var looping := StartMonitoring(subscribed);
      RestoreOverlayState(looping.(receiverRegistered := true), running)
    else a
  }

  /** `onResume`: from SDK 29 on, restart the loop. The thermal monitor is
      left as it is, so a subscription dropped by a pause stays dropped. */
  function OnResume(a: Activity, sdk: int): (r: Activity)
    ensures sdk >= ThermalStatus.SdkQ ==> r.isMonitoring && Pending(r) == Pending(a) + 1
    ensures sdk < ThermalStatus.SdkQ ==> r == a
    ensures r.monitor == a.monitor
    ensures r.isOverlayActive == a.isOverlayActive && r.prefs == a.prefs
    ensures r.receiverRegistered == a.receiverRegistered && r.effects == a.effects
  {
    if sdk >= ThermalStatus.SdkQ then StartMonitoring(a) else a
  }

  /** `onPause`: stop the loop and, from SDK 29 on, the thermal monitor. */
  function OnPause(a: Activity, sdk: int): (r: Activity)
    ensures !r.isMonitoring && Pending(r) == 0
    ensures sdk >= ThermalStatus.SdkQ ==> r.monitor == L.Stop(a.monitor) && r.monitor.listener.None?
    ensures sdk < ThermalStatus.SdkQ ==> r.monitor == a.monitor
    ensures r.isOverlayActive == a.isOverlayActive && r.prefs == a.prefs
    ensures r.receiverRegistered == a.receiverRegistered && r.effects == a.effects
  {
    StopMonitoring(a, sdk)
  }

  /** `onDestroy`: stop monitoring and unregister the receiver (a second
      unregistration throws and is swallowed, so it is a no-op). */
  function OnDestroy(a: Activity, sdk: int): (r: Activity)
    ensures !r.isMonitoring && Pending(r) == 0 && !r.receiverRegistered
    ensures sdk >= ThermalStatus.SdkQ ==> r.monitor == L.Stop(a.monitor) && r.monitor.listener.None?
    ensures sdk < ThermalStatus.SdkQ ==> r.monitor == a.monitor
    ensures r.isOverlayActive == a.isOverlayActive && r.prefs == a.prefs && r.effects == a.effects
  {
    StopMonitoring(a, sdk).(receiverRegistered := false)
  }

  /** A broadcast reaches the receiver only while it is registered. */
  function DeliverBroadcast(a: Activity, action: Option<string>): (r: Activity)
    ensures a.receiverRegistered && action == Some(OverlayService.ActionOverlayStopped) ==>
      !r.isOverlayActive && !Saved(r.prefs) && InSync(r)
    ensures !a.receiverRegistered || action != Some(OverlayService.ActionOverlayStopped) ==> r == a
    ensures r.isMonitoring == a.isMonitoring && r.handler == a.handler && r.monitor == a.monitor
    ensures r.receiverRegistered == a.receiverRegistered && r.effects == a.effects
  {
    if a.receiverRegistered then OnReceive(a, action) else a
  }

  /** Created and resumed (the platform always resumes after creating): two
      tick chains are pending, and ticking keeps both alive. */
  lemma CreateThenResumeRunsTwoChains(p: Prefs, sdk: int, running: bool, n: nat)
    requires sdk >= ThermalStatus.SdkQ
    ensures var a := OnResume(OnCreate(Initial(p), sdk, running), sdk);
      Pending(a) == 2 && Pending(RunUpdates(a, n)) == 2
  {
  }

  /** After a pause no tick is pending, so the loop cannot re-arm itself;
      a resume restarts exactly one chain. */
  lemma PauseEndsTheLoop(a: Activity, sdk: int)
    requires sdk >= ThermalStatus.SdkQ
    ensures Looper.ActivityUpdate !in OnPause(a, sdk).handler.pending
    ensures Pending(OnResume(OnPause(a, sdk), sdk)) == 1
  {
  }

  /** Pausing stops the thermal monitor, and resuming only restarts the
      loop: from then on no status push reaches the activity. */
  lemma ResumeDoesNotResubscribe(p: Prefs, sdk: int, running: bool, status: int)
    requires sdk >= ThermalStatus.SdkQ
    ensures var created := OnCreate(Initial(p), sdk, running);
      var resumed := OnResume(OnPause(created, sdk), sdk);
      && |L.Deliver(created.monitor, status)| == 1
      && resumed.monitor.listener.None? && L.Deliver(resumed.monitor, status) == multiset{}
  {
    var created := OnCreate(Initial(p), sdk, running);
    assert created.monitor.registered == {0};
  }

  /** The overlay's teardown broadcast clears the activity's flag and the
      stored flag, when the receiver is registered. */
  lemma OverlayDestroyClearsFlag(a: Activity, s: OverlayService.Service)
    requires a.receiverRegistered
    ensures var sent := OverlayService.OnDestroy(s).broadcasts;
      var r := DeliverBroadcast(a, Some(sent[|sent| - 1]));
      !r.isOverlayActive && !Saved(r.prefs) && InSync(r)
  {
  }

  // ---------------------------------------------------------------------
  // Guarded start: the corrected loop, a no-op while already running
  // ---------------------------------------------------------------------

  /** `startMonitoring` with the missing guard: a no-op while monitoring. */
  function StartMonitoringGuarded(a: Activity): (r: Activity)
    ensures r.isMonitoring
    ensures a.isMonitoring ==> r == a
    ensures !a.isMonitoring ==> Pending(r) == Pending(a) + 1
  {
    if a.isMonitoring then a else StartMonitoring(a)
  }

  /** With the guard, at most one chain ever runs: the invariant "one tick
      pending while monitoring, none otherwise" survives every loop step. */
  predicate SingleChain(a: Activity) {
    Pending(a) == if a.isMonitoring then 1 else 0
  }

  lemma GuardedLoopKeepsSingleChain(a: Activity, sdk: int)
    requires SingleChain(a)
    ensures SingleChain(StartMonitoringGuarded(a))
    ensures StartMonitoringGuarded(StartMonitoringGuarded(a)) == StartMonitoringGuarded(a)
    ensures SingleChain(StopMonitoring(a, sdk))
    ensures Looper.ActivityUpdate in a.handler.pending ==> SingleChain(RunUpdate(a))
  {
  }

  /** The as-written start is not idempotent: two starts, two new chains. */
  lemma StartMonitoringTwiceAddsTwoChains(a: Activity)
    ensures Pending(StartMonitoring(StartMonitoring(a))) == Pending(a) + 2
    ensures SingleChain(a) && a.isMonitoring ==> !SingleChain(StartMonitoring(a))
  {
  }

  /** Created and resumed with the guard in place: one chain. */
  lemma GuardedCreateThenResumeRunsOneChain(p: Prefs, sdk: int, running: bool)
    requires sdk >= ThermalStatus.SdkQ
    ensures var created := OnCreate(Initial(p), sdk, running);
      Pending(StartMonitoringGuarded(created)) == 1
  {
  }
}

=== FILE: options.dfy ===
/** Optional values, and the "first candidate that yields a value" search that
    both the thermal-zone cascade and the `top` output parser follow. */
module Options {

  /** A value that may be absent: Kotlin's nullable types, and the NaN
      sentinel that `getThermalHeadroom` returns. */
  datatype Option<+T> = None | Some(value: T) {

    /** The value, or `default` when absent (Kotlin's `?:`). */
    function GetOr(default: T): T {
      match this
      case Some(v) => v
      case None => default
    }
  }

  /** Position of the first element of `s[from..]` on which `f` yields a value. */
  function FirstIndexFrom<T, U>(s: seq<T>, f: T -> Option<U>, from: nat): (r: Option<nat>)
    requires from <= |s|
    ensures r.Some? ==> from <= r.value < |s| && f(s[r.value]).Some?
    ensures r.Some? ==> forall j :: from <= j < r.value ==> f(s[j]).None?
    ensures r.None? ==> forall j :: from <= j < |s| ==> f(s[j]).None?
    decreases |s| - from
  {
    if from == |s| then None
    else if f(s[from]).Some? then Some(from)
    else FirstIndexFrom(s, f, from + 1)
  }

  /** Position of the first element of `s` on which `f` yields a value. */
  function FirstIndex<T, U>(s: seq<T>, f: T -> Option<U>): (r: Option<nat>)
    ensures r.Some? ==> r.value < |s| && f(s[r.value]).Some?
    ensures r.Some? ==> forall j :: 0 <= j < r.value ==> f(s[j]).None?
    ensures r.None? <==> forall j :: 0 <= j < |s| ==> f(s[j]).None?
  {
    FirstIndexFrom(s, f, 0)
  }

  /** `FirstIndex` is pinned down by any position that is first: every
      earlier element yields nothing and the element itself yields a value. */
  lemma FirstIndexAt<T, U>(s: seq<T>, f: T -> Option<U>, k: nat)
    requires k < |s| && f(s[k]).Some?
    requires forall j :: 0 <= j < k ==> f(s[j]).None?
    ensures FirstIndex(s, f) == Some(k)
  {
  }
}

=== FILE: overlay_service.dfy ===
/** The floating overlay service: its drag handler, the window's initial
    position, its unconditional update loop and its teardown.

    Window coordinates are Kotlin `Int`s: the pointer delta is a `Float`
    converted by `toInt()` (truncation toward zero, saturating at the `Int`
    range) and added with 32-bit wrap-around. Pointer coordinates are reals;
    float rounding is not modelled. */
module OverlayService {
  import L = ThermalListeners
  import Looper

  /** Broadcast sent when the service is torn down. */
  const ActionOverlayStopped: string := "com.monitor.cpugpu.OVERLAY_STOPPED"

  /** Window position given to the compositor when the overlay is created. */
  const InitialX: int := 100
  const InitialY: int := 100

  /** MotionEvent action codes the handler reacts to. */
  const ActionDown: int := 0
  const ActionUp: int := 1
  const ActionMove: int := 2

  const IntMin: int := -0x8000_0000
  const IntMax: int := 0x7fff_ffff
  const IntModulus: int := 0x1_0000_0000

  predicate IsInt(n: int) {
    IntMin <= n <= IntMax
  }

  /** Truncation toward zero. */
  function Trunc(r: real): (n: int)
    ensures r >= 0.0 ==> n as real <= r < n as real + 1.0
    ensures r < 0.0 ==> n as real - 1.0 < r <= n as real
  {
    if r >= 0.0 then r.Floor else -((-r).Floor)
  }

  /** `Float.toInt()`: truncation toward zero, saturating at the `Int` range. */
  function FloatToInt(r: real): (n: int)
    ensures IsInt(n)
    ensures IsInt(Trunc(r)) ==> n == Trunc(r)
    ensures Trunc(r) > IntMax ==> n == IntMax
    ensures Trunc(r) < IntMin ==> n == IntMin
  {
    var t := Trunc(r);
    if t > IntMax then IntMax else if t < IntMin then IntMin else t
  }

  /** `Int` arithmetic: the result reduced into the 32-bit range. */
  function WrapInt(n: int): (w: int)
    ensures IsInt(w)
    ensures (w - n) % IntModulus == 0
    ensures IsInt(n) ==> w == n
  {
    (n - IntMin) % IntModulus + IntMin
  }

  datatype MotionEvent = MotionEvent(action: int, rawX: real, rawY: real)

  /** The window's layout position and the origins captured at pointer-down. */
  datatype Drag = Drag(x: int, y: int, initialX: int, initialY: int, initialTouchX: real, initialTouchY: real)

  /** As created: at (100, 100), with the capture fields at their zero defaults. */
  const Placed: Drag := Drag(InitialX, InitialY, 0, 0, 0.0, 0.0)

  /** Every integer field holds a Kotlin `Int`. */
  predicate InRange(d: Drag) {
    IsInt(d.x) && IsInt(d.y) && IsInt(d.initialX) && IsInt(d.initialY)
  }

  /** The touch listener's answer: the new state and whether the event was consumed. */
  datatype Touch = Touch(drag: Drag, consumed: bool)

  /** `initialX + (rawX - initialTouchX).toInt()`. */
  function Follow(origin: int, raw: real, touch: real): int {
    WrapInt(origin + FloatToInt(raw - touch))
  }

  /** The overlay's `OnTouchListener`. */
  function OnTouch(d: Drag, e: MotionEvent): (t: Touch)
    ensures InRange(d) ==> InRange(t.drag)
    ensures t.consumed <==> e.action == ActionDown || e.action == ActionMove
    ensures !t.consumed ==> t.drag == d
    ensures e.action == ActionDown ==>
      t.drag == Drag(d.x, d.y, d.x, d.y, e.rawX, e.rawY)
    ensures e.action == ActionMove ==>
      && t.drag.initialX == d.initialX && t.drag.initialY == d.initialY
      && t.drag.initialTouchX == d.initialTouchX && t.drag.initialTouchY == d.initialTouchY
  {
    if e.action == ActionDown then
      Touch(d.(initialX := d.x, initialY := d.y, initialTouchX := e.rawX, initialTouchY := e.rawY), true)
    else if e.action == ActionMove then
      Touch(d.(x := Follow(d.initialX, e.rawX, d.initialTouchX), y := Follow(d.initialY, e.rawY, d.initialTouchY)), true)
    else
      Touch(d, false)
  }

  /** Pointer-down at `p` then a move to `q` shifts the window by the
      truncated pointer delta, as long as nothing leaves the `Int` range. */
  lemma DragMovesByPointerDelta(d: Drag, p: MotionEvent, q: MotionEvent)
    requires InRange(d) && p.action == ActionDown && q.action == ActionMove
    requires IsInt(Trunc(q.rawX - p.rawX)) && IsInt(d.x + Trunc(q.rawX - p.rawX))
    requires IsInt(Trunc(q.rawY - p.rawY)) && IsInt(d.y + Trunc(q.rawY - p.rawY))
    ensures var moved := OnTouch(OnTouch(d, p).drag, q).drag;
      moved.x == d.x + Trunc(q.rawX - p.rawX) && moved.y == d.y + Trunc(q.rawY - p.rawY)
  {
  }

  /** Window at (100, 100), down at (50, 50), move to (80, 70): the window
      lands at (130, 120); a following pointer-up leaves it there. */
  lemma DragExample()
    ensures var down := OnTouch(Placed, MotionEvent(ActionDown, 50.0, 50.0));
      var move := OnTouch(down.drag, MotionEvent(ActionMove, 80.0, 70.0));
      var up := OnTouch(move.drag, MotionEvent(ActionUp, 80.0, 70.0));
      && down.consumed && down.drag.x == 100 && down.drag.y == 100
      && move.consumed && move.drag.x == 130 && move.drag.y == 120
      && !up.consumed && up.drag == move.drag
  {
    assert Trunc(30.0) == 30 && Trunc(20.0) == 20;
  }

  /** Moves are measured from the pointer-down capture, not accumulated:
      after any move, a move to `q` lands where a move to `q` alone would. */
  lemma MovesAreNotCumulative(d: Drag, m1: MotionEvent, m2: MotionEvent)
    requires m1.action == ActionMove && m2.action == ActionMove
    ensures OnTouch(OnTouch(d, m1).drag, m2) == OnTouch(d, m2)
  {
  }

  /** Returning the pointer to where it went down puts the window back. */
  lemma ReturnToDownPointRestores(d: Drag, p: MotionEvent)
    requires InRange(d) && p.action == ActionDown
    ensures var back := OnTouch(OnTouch(d, p).drag, MotionEvent(ActionMove, p.rawX, p.rawY)).drag;
      back.x == d.x && back.y == d.y
  {
    assert Trunc(p.rawX - p.rawX) == 0 && Trunc(p.rawY - p.rawY) == 0;
  }

  /** No clamping: dragging up and left past the screen origin gives
      negative window coordinates. */
  lemma DragIsNotClamped()
    ensures var down := OnTouch(Placed, MotionEvent(ActionDown, 500.0, 500.0)).drag;
      var moved := OnTouch(down, MotionEvent(ActionMove, 0.0, 0.0)).drag;
      moved.x == -400 && moved.y == -400
  {
    assert Trunc(-500.0) == -500;
  }

  /** The service's state: its handler, its thermal monitor, whether its view
      is attached, the drag state, and the broadcasts it has sent. */
  datatype Service = Service(
    handler: Looper.Handler,
    monitor: L.Monitor,
    viewAttached: bool,
    drag: Drag,
    broadcasts: seq<string>)

  /** The overlay's callback `{ }`: registered, but it does nothing. */
  const IgnoreStatus: L.CallbackId := 1

  function Pending(s: Service): nat {
    s.handler.pending[Looper.OverlayUpdate]
  }

  /** `onCreate`: view added at (100, 100), status listener registered, first update posted. */
  function OnCreate(): (s: Service)
    ensures Pending(s) == 1 && s.viewAttached && s.drag.x == 100 && s.drag.y == 100
    ensures s.monitor.listener.Some? && s.monitor.listener.value in s.monitor.registered
    ensures L.Valid(s.monitor) && InRange(s.drag)
  {
    Service(Looper.Post(Looper.Idle, Looper.OverlayUpdate), L.Start(L.Fresh, IgnoreStatus), true, Placed, [])
  }

  /** One run of `updateRunnable`: refresh the view, then post itself again, unconditionally. */
  function RunUpdate(s: Service): (r: Service)
    requires Looper.OverlayUpdate in s.handler.pending
    ensures Pending(r) == Pending(s)
    ensures r.monitor == s.monitor && r.drag == s.drag && r.viewAttached == s.viewAttached
    ensures r.broadcasts == s.broadcasts
  {
    s.(handler := Looper.Post(Looper.Dispatch(s.handler, Looper.OverlayUpdate), Looper.OverlayUpdate))
  }

  /** The loop never ends by itself: after any number of runs exactly as many posts remain pending. */
  function RunUpdates(s: Service, n: nat): (r: Service)
    requires Looper.OverlayUpdate in s.handler.pending
    ensures Pending(r) == Pending(s) > 0
    ensures r.monitor == s.monitor && r.drag == s.drag
    ensures r.viewAttached == s.viewAttached && r.broadcasts == s.broadcasts
    decreases n
  {
    if n == 0 then s else RunUpdates(RunUpdate(s), n - 1)
  }

  /** A touch on the overlay view. */
  function Touched(s: Service, e: MotionEvent): (r: Service)
    ensures r.drag == OnTouch(s.drag, e).drag
    ensures Pending(r) == Pending(s) && r.monitor == s.monitor
    ensures r == s.(drag := r.drag)
  {
    s.(drag := OnTouch(s.drag, e).drag)
  }

  /** `onDestroy`: cancel the loop, stop the monitor, remove the view, broadcast the stop. */
  function OnDestroy(s: Service): (r: Service)
    ensures Pending(r) == 0
    ensures r.monitor.listener.None? && r.monitor.callback.None?
    ensures s.monitor.listener.Some? ==> r.monitor.registered == s.monitor.registered - {s.monitor.listener.value}
    ensures L.Valid(s.monitor) ==> L.Valid(r.monitor)
    ensures !r.viewAttached
    ensures r.broadcasts == s.broadcasts + [ActionOverlayStopped]
  {
    Service(Looper.RemoveCallbacks(s.handler, Looper.OverlayUpdate), L.Stop(s.monitor), false, s.drag,
            s.broadcasts + [ActionOverlayStopped])
  }
}

=== FILE: thermal_listeners.dfy ===
/** The thermal-status subscription of ThermalMonitor: `startMonitoring`
    creates a fresh platform listener, registers it and remembers it together
    with the caller's callback; `stopMonitoring` unregisters the remembered
    listener and forgets both.

    The platform's listener registry is part of the state (`registered`).
    Listeners and callbacks are opaque objects, represented by identities.
    Every listener created by `startMonitoring` invokes the monitor's
    callback FIELD when the platform calls it, so it reaches whichever
    callback is current at that moment, not the one it was created with. */
module ThermalListeners {
  import opened Options

  type ListenerId = nat
  type CallbackId = nat

  datatype Monitor = Monitor(
    registered: set<ListenerId>,   // listeners of this monitor the platform holds
    listener: Option<ListenerId>,  // the `thermalListener` field
    callback: Option<CallbackId>,  // the `statusCallback` field
    nextId: ListenerId)            // identity of the next listener object created

  /** A monitor as constructed: nothing registered, both fields null. */
  const Fresh: Monitor := Monitor({}, None, None, 0)

  /** The states a monitor can reach: the remembered listener is registered,
      the two fields are set and cleared together, and identities are fresh. */
  ghost predicate Valid(m: Monitor) {
    && (forall l :: l in m.registered ==> l < m.nextId)
    && (m.listener.Some? ==> m.listener.value in m.registered)
    && (m.listener.Some? <==> m.callback.Some?)
  }

  /** `startMonitoring(onStatusChanged)`. */
  function Start(m: Monitor, callback: CallbackId): (r: Monitor)
    ensures Valid(m) ==> Valid(r)
    ensures r.callback == Some(callback) && r.listener.Some?
    ensures r.registered == m.registered + {r.listener.value}
    ensures Valid(m) ==> r.listener.value !in m.registered
    ensures Valid(m) && m.listener.Some? ==> m.listener.value in r.registered && m.listener != r.listener
  {
    Monitor(m.registered + {m.nextId}, Some(m.nextId), Some(callback), m.nextId + 1)
  }

  /** `stopMonitoring()`. */
  function Stop(m: Monitor): (r: Monitor)
    ensures Valid(m) ==> Valid(r)
    ensures r.listener.None? && r.callback.None?
    ensures m.listener.Some? ==> r.registered == m.registered - {m.listener.value}
    ensures m.listener.None? ==> r.registered == m.registered
  {
    match m.listener
    case Some(l) => Monitor(m.registered - {l}, None, None, m.nextId)
    case None => Monitor(m.registered, None, None, m.nextId)
  }

  /** Stopping twice is stopping once. */
  lemma StopIsIdempotent(m: Monitor)
    ensures Stop(Stop(m)) == Stop(m)
  {
  }

  /** One callback invocation carrying a platform status code. */
  datatype Delivery = Delivery(callback: CallbackId, status: int)

  /** What one platform status event produces: every registered listener
      invokes the current callback, if any, with the status unchanged. */
  function Deliver(m: Monitor, status: int): (d: multiset<Delivery>)
    ensures m.callback.None? ==> d == multiset{}
    ensures m.callback.Some? ==> d[Delivery(m.callback.value, status)] == |m.registered| == |d|
  {
    match m.callback
    case None => multiset{}
    case Some(cb) => multiset{}[Delivery(cb, status) := |m.registered|]
  }

  /** The invocations caused by a stream of status events, in order; no
      event is suppressed, identical consecutive ones included. */
  function DeliverAll(m: Monitor, events: seq<int>): (d: seq<multiset<Delivery>>)
    ensures |d| == |events|
    ensures forall i :: 0 <= i < |events| ==> d[i] == Deliver(m, events[i])
  {
    if |events| == 0 then [] else [Deliver(m, events[0])] + DeliverAll(m, events[1..])
  }

  /** A monitor started once forwards every event exactly once, in order. */
  lemma StartedOnceForwardsEveryEvent(callback: CallbackId, events: seq<int>)
    ensures var m := Start(Fresh, callback);
      forall i :: 0 <= i < |events| ==> DeliverAll(m, events)[i] == multiset{Delivery(callback, events[i])}
  {
    var m := Start(Fresh, callback);
    assert m.registered == {0};
    forall i | 0 <= i < |events|
      ensures DeliverAll(m, events)[i] == multiset{Delivery(callback, events[i])}
    {
      assert Deliver(m, events[i]) == multiset{Delivery(callback, events[i])};
    }
  }

  /** Starting twice without a stop leaks the first listener: it stays
      registered, and since it too calls the current callback, every event
      now reaches that callback twice. */
  lemma SecondStartDuplicatesDeliveries(first: CallbackId, second: CallbackId, status: int)
    ensures var m := Start(Start(Fresh, first), second);
      |m.registered| == 2 && Deliver(m, status)[Delivery(second, status)] == 2
  {
    var m := Start(Start(Fresh, first), second);
    assert m.registered == {0, 1};
  }

  /** After a stop nothing reaches any callback, even though a leaked
      listener may still be registered. */
  lemma StopSilences(m: Monitor, status: int)
    ensures Deliver(Stop(m), status) == multiset{}
  {
  }
}

=== FILE: thermal_probes.dfy ===
/** The temperature probes of ThermalMonitor: CPU and GPU each try three
    thermal zones in order and keep the first plausible reading; the battery
    has one source and no plausibility check.

    Reading a sysfs node (`cat <path>` and `readLine()`) is an input: a
    `SourceLine` is `None` when the process or the read fails or prints
    nothing, else the first line. Kotlin's `String.toFloat` is a `Parser`,
    `None` where it throws. Temperatures are reals; float rounding is not
    modelled. */
module ThermalProbes {
  import opened Options

  /** First line of a sysfs node, or `None` when it could not be read. */
  type SourceLine = Option<string>

  /** Numeric parsing as a partial function: `None` where `toFloat` throws. */
  type Parser = string -> Option<real>

  /** Thermal zones `/sys/class/thermal/thermal_zone<i>/temp`, read in this order. */
  const CpuZones: seq<nat> := [0, 1, 2]
  const GpuZones: seq<nat> := [3, 4, 5]

  /** Sysfs reports zones in milli-degrees and the battery in tenths. */
  const ZoneDivisor: real := 1000.0
  const BatteryDivisor: real := 10.0

  /** Exclusive plausibility bounds, in degrees Celsius. */
  const MinPlausible: real := 0.0
  const MaxPlausible: real := 150.0

  /** One candidate of a cascade: its reading in Celsius when the line is
      present, non-empty, parses, and lands strictly inside (0, 150). */
  function ZoneCelsius(parse: Parser, line: SourceLine): (r: Option<real>)
    ensures r.Some? <==>
      && line.Some? && line.value != ""
      && parse(line.value).Some?
      && 0.0 < parse(line.value).value < 150000.0
    ensures r.Some? ==> r.value * 1000.0 == parse(line.value).value
  {
    if line.None? || line.value == "" then None
    else match parse(line.value)
      case None => None
      case Some(raw) =>
        var celsius := raw / ZoneDivisor;
        if MinPlausible < celsius && celsius < MaxPlausible then Some(celsius) else None
  }

  /** The cascade over the given zones: the first zone whose candidate is accepted. */
  function ProbeZones(zones: seq<nat>, read: nat -> SourceLine, parse: Parser): (r: Option<real>)
    ensures r.Some? ==> MinPlausible < r.value < MaxPlausible
    ensures r.None? <==> forall j :: 0 <= j < |zones| ==> ZoneCelsius(parse, read(zones[j])).None?
    ensures r.Some? ==>
      exists i :: 0 <= i < |zones| && r == ZoneCelsius(parse, read(zones[i]))
        && forall j :: 0 <= j < i ==> ZoneCelsius(parse, read(zones[j])).None?
  {
    var candidate := (z: nat) => ZoneCelsius(parse, read(z));
    var k := FirstIndex(zones, candidate);
    if k.Some? then
      assert candidate(zones[k.value]) == ZoneCelsius(parse, read(zones[k.value]));
      candidate(zones[k.value])
    else
      assert forall j :: 0 <= j < |zones| ==> candidate(zones[j]) == ZoneCelsius(parse, read(zones[j]));
      None
  }

  /** The `for (zone in zones)` loop of `getCPUTemperature` and
      `getGPUTemperature`, returning from inside the loop on the first
      accepted zone and skipping every failure. */
  method ReadFirstPlausible(zones: seq<nat>, read: nat -> SourceLine, parse: Parser)
    returns (temp: Option<real>)
    ensures temp == ProbeZones(zones, read, parse)
  {
    for k := 0 to |zones|
      invariant forall j :: 0 <= j < k ==> ZoneCelsius(parse, read(zones[j])).None?
    {
      var candidate := ZoneCelsius(parse, read(zones[k]));
      if candidate.Some? {
        assert candidate == ProbeZones(zones, read, parse) by {
          var r := ProbeZones(zones, read, parse);
          assert r.Some?;
          var i :| 0 <= i < |zones| && r == ZoneCelsius(parse, read(zones[i]))
            && forall j :: 0 <= j < i ==> ZoneCelsius(parse, read(zones[j])).None?;
          assert !(i < k) && !(k < i);
        }
        return candidate;
      }
    }
    return None;
  }

  /** `getCPUTemperature`: zones 0, 1 and 2, first plausible one wins. */
  function CpuTemperature(read: nat -> SourceLine, parse: Parser): (r: Option<real>)
    ensures r.Some? ==> MinPlausible < r.value < MaxPlausible
    ensures r ==
      if ZoneCelsius(parse, read(0)).Some? then ZoneCelsius(parse, read(0))
      else if ZoneCelsius(parse, read(1)).Some? then ZoneCelsius(parse, read(1))
      else ZoneCelsius(parse, read(2))
  {
    var r := ProbeZones(CpuZones, read, parse);
    assert CpuZones[0] == 0 && CpuZones[1] == 1 && CpuZones[2] == 2;
    r
  }

  /** `getGPUTemperature`: the same cascade over zones 3, 4 and 5. */
  function GpuTemperature(read: nat -> SourceLine, parse: Parser): (r: Option<real>)
    ensures r.Some? ==> MinPlausible < r.value < MaxPlausible
    ensures r ==
      if ZoneCelsius(parse, read(3)).Some? then ZoneCelsius(parse, read(3))
      else if ZoneCelsius(parse, read(4)).Some? then ZoneCelsius(parse, read(4))
      else ZoneCelsius(parse, read(5))
  {
    var r := ProbeZones(GpuZones, read, parse);
    assert GpuZones[0] == 3 && GpuZones[1] == 4 && GpuZones[2] == 5;
    r
  }

  /** `getBatteryTemperature`: one source, divided by ten, with no bound. */
  function BatteryTemperature(parse: Parser, line: SourceLine): (r: Option<real>)
    ensures r.Some? <==> line.Some? && line.value != "" && parse(line.value).Some?
    ensures r.Some? ==> r.value * 10.0 == parse(line.value).value
  {
    if line.None? || line.value == "" then None
    else match parse(line.value)
      case None => None
      case Some(raw) => Some(raw / BatteryDivisor)
  }

  /** The CPU and GPU cascades read disjoint zones, so each is unaffected by
      whatever the other's zones contain. */
  lemma CpuProbeReadsOnlyCpuZones(read1: nat -> SourceLine, read2: nat -> SourceLine, parse: Parser)
    requires forall z :: z in CpuZones ==> read1(z) == read2(z)
    ensures CpuTemperature(read1, parse) == CpuTemperature(read2, parse)
    ensures forall z :: z in CpuZones ==> z !in GpuZones
  {
    assert 0 in CpuZones && 1 in CpuZones && 2 in CpuZones;
  }

  lemma GpuProbeReadsOnlyGpuZones(read1: nat -> SourceLine, read2: nat -> SourceLine, parse: Parser)
    requires forall z :: z in GpuZones ==> read1(z) == read2(z)
    ensures GpuTemperature(read1, parse) == GpuTemperature(read2, parse)
  {
    assert 3 in GpuZones && 4 in GpuZones && 5 in GpuZones;
  }

  /** Zone 0 unreadable, zone 1 at 45200 milli-degrees and zone 2 at an
      implausible 200000: the probe reports 45.2 degrees from zone 1. */
  lemma CpuProbeExample(read: nat -> SourceLine, parse: Parser)
    requires read(0) == None && read(1) == Some("45200") && read(2) == Some("200000")
    requires parse("45200") == Some(45200.0) && parse("200000") == Some(200000.0)
    ensures CpuTemperature(read, parse) == Some(45.2)
  {
    assert ZoneCelsius(parse, read(0)) == None;
    assert ZoneCelsius(parse, read(1)) == Some(45.2);
  }

  /** Exhausting every candidate yields absence, never zero. */
  lemma AllZonesFailing(zones: seq<nat>, read: nat -> SourceLine, parse: Parser)
    requires forall j :: 0 <= j < |zones| ==>
      read(zones[j]).None? || read(zones[j]).value == "" || parse(read(zones[j]).value).None?
      || parse(read(zones[j]).value).value <= 0.0 || parse(read(zones[j]).value).value >= 150000.0
    ensures ProbeZones(zones, read, parse) == None
  {
  }

  /** Battery readings are passed through unbounded: a negative or a very
      hot reading comes back as-is where a thermal zone would reject it. */
  lemma BatteryHasNoPlausibilityBound(parse: Parser, text: string, raw: real)
    requires text != "" && parse(text) == Some(raw)
    ensures BatteryTemperature(parse, Some(text)) == Some(raw / 10.0)
    ensures raw <= 0.0 || raw >= 150000.0 ==> ZoneCelsius(parse, Some(text)) == None
  {
  }
}

=== FILE: thermal_status.dfy ===
/** Thermal status codes of the platform power manager, their labels and
    colours, and the thermal headroom forecast with its conversion to a load
    percentage. */
module ThermalStatus {
  import opened Options
  import opened ColourBands

  /** The platform's THERMAL_STATUS_* constants 0 to 6, plus a catch-all. */
  datatype Status = Nominal | Light | Moderate | Severe | Critical | Emergency | Shutdown | Unrecognised

  /** SDK levels at which the platform gains each capability. */
  const SdkQ: int := 29
  const SdkR: int := 30

  function StatusOfCode(code: int): Status {
    if code == 0 then Nominal
    else if code == 1 then Light
    else if code == 2 then Moderate
    else if code == 3 then Severe
    else if code == 4 then Critical
    else if code == 5 then Emergency
    else if code == 6 then Shutdown
    else Unrecognised
  }

  /** The platform code of a status; the catch-all has none. */
  function CodeOf(s: Status): (r: Option<int>)
    ensures r.Some? <==> s != Unrecognised
    ensures r.Some? ==> StatusOfCode(r.value) == s
  {
    match s
    case Nominal => Some(0)
    case Light => Some(1)
    case Moderate => Some(2)
    case Severe => Some(3)
    case Critical => Some(4)
    case Emergency => Some(5)
    case Shutdown => Some(6)
    case Unrecognised => None
  }

  function StatusLabel(s: Status): string {
    match s
    case Nominal => "Normal"
    case Light => "Light Throttling"
    case Moderate => "Moderate Throttling"
    case Severe => "Severe Throttling"
    case Critical => "Critical"
    case Emergency => "Emergency"
    case Shutdown => "Shutdown Warning"
    case Unrecognised => "Unknown"
  }

  /** Reads a label back; the inverse of `StatusLabel`. */
  function StatusOfLabel(text: string): Status {
    if text == "Normal" then Nominal
    else if text == "Light Throttling" then Light
    else if text == "Moderate Throttling" then Moderate
    else if text == "Severe Throttling" then Severe
    else if text == "Critical" then Critical
    else if text == "Emergency" then Emergency
    else if text == "Shutdown Warning" then Shutdown
    else Unrecognised
  }

  /** `getThermalStatusString`. */
  function ThermalStatusString(code: int): (r: string)
    ensures 0 <= code <= 6 <==> r != "Unknown"
    ensures StatusOfLabel(r) == StatusOfCode(code)
  {
    StatusLabel(StatusOfCode(code))
  }

  /** The seven known codes get seven distinct labels. */
  lemma LabelsAreDistinct(c1: int, c2: int)
    requires 0 <= c1 <= 6 && 0 <= c2 <= 6 && c1 != c2
    ensures ThermalStatusString(c1) != ThermalStatusString(c2)
  {
    assert CodeOf(StatusOfCode(c1)) == Some(c1);
    assert CodeOf(StatusOfCode(c2)) == Some(c2);
  }

  /** The text colour `updateThermalStatus` picks for a status code. */
  function StatusColour(code: int): (c: Colour)
    ensures c == Grey <==> StatusOfCode(code) == Unrecognised
    ensures 0 <= code <= 6 ==> Warmth(c) == code
  {
    match StatusOfCode(code)
    case Nominal => Green
    case Light => LightGreen
    case Moderate => Amber
    case Severe => Orange
    case Critical => DeepOrange
    case Emergency => Red
    case Shutdown => DarkRed
    case Unrecognised => Grey
  }

  /** A more severe status always shows a warmer colour. */
  lemma StatusColourWarmsWithSeverity(c1: int, c2: int)
    requires 0 <= c1 < c2 <= 6
    ensures Warmth(StatusColour(c1)) < Warmth(StatusColour(c2))
  {
  }

  /** Colour and label always agree: two codes share a colour exactly when
      they share a label. */
  lemma ColourFollowsLabel(c1: int, c2: int)
    ensures StatusColour(c1) == StatusColour(c2) <==> ThermalStatusString(c1) == ThermalStatusString(c2)
  {
    var s1, s2 := StatusOfCode(c1), StatusOfCode(c2);
    assert StatusOfLabel(StatusLabel(s1)) == s1;
    assert StatusOfLabel(StatusLabel(s2)) == s2;
  }

  /** `getThermalHeadroom`: the platform forecast from SDK 30 on, NaN
      (`None`) before. The platform itself may also answer NaN. */
  function ThermalHeadroom(sdk: int, forecast: Option<real>): (r: Option<real>)
    ensures r.Some? <==> sdk >= SdkR && forecast.Some?
    ensures r.Some? ==> r == forecast
  {
    if sdk >= SdkR then forecast else None
  }

  /** What the activity shows on the headroom line. */
  datatype HeadroomText = RequiresAndroid11 | HeadroomNotAvailable | ThermalLoad(percent: real)

  /** The headroom line of `updateMonitoringData`: a load percentage of
      (1 - h) * 100 for an available headroom `h`. */
  function HeadroomDisplay(sdk: int, forecast: Option<real>): (t: HeadroomText)
    ensures t.RequiresAndroid11? <==> sdk < SdkR
    ensures t.HeadroomNotAvailable? <==> sdk >= SdkR && forecast.None?
    ensures t.ThermalLoad? ==> forecast.Some? && forecast.value == 1.0 - t.percent / 100.0
  {
    if sdk >= SdkR then
      match ThermalHeadroom(sdk, forecast)
      case Some(h) => ThermalLoad((1.0 - h) * 100.0)
      case None => HeadroomNotAvailable
    else RequiresAndroid11
  }

  /** Headroom 0.3 reads as a 70% thermal load; more headroom never reads
      as more load. */
  lemma HeadroomLoadExample(sdk: int, h1: real, h2: real)
    requires sdk >= SdkR && h1 <= h2
    ensures HeadroomDisplay(sdk, Some(0.3)) == ThermalLoad(70.0)
    ensures HeadroomDisplay(sdk, Some(h2)).percent <= HeadroomDisplay(sdk, Some(h1)).percent
  {
  }
}
